=== FILE: README.md ===
# A verified model of the core of `brute_force.py`

`brute_force.py` is a multithreaded HTTP path brute-forcer. It reads a wordlist,
turns every line into one or more candidate paths (optional suffixes, optional
case change), substitutes each candidate for the `THS` placeholder of the target
URL, and requests every resulting URL through a thread pool. A response whose
status code is one of the match codes is written once to a timestamped output
file. The set of completed candidates is saved to a progress file after every
submission, so that an interrupted run can be resumed.

This project models the deterministic core of that script in Dafny. It proves
what each part computes and how the parts fit together.

- `wrappers.dfy` (`Wrappers`): `Option`, used for a file that may be missing,
  a search that finds nothing, and a line that does not parse.
- `str.dfy` (`Str`): the Python `str` operations the script relies on:
  - `isspace` and `strip`;
  - ASCII `upper`, `lower` and `capitalize`;
  - `split` with a separator, and `replace`;
  - `str()` of a non-negative integer, with its inverse.

  `Find` (Python's `find`) and `Join` (Python's `join`) are not called by the script.
  The model uses them to state what `split` and `replace` compute.
- `textfile.dfy` (`TextFile`): how a text file looks to the script.
  - A file is a string of characters.
  - Reading translates `\r\n` and `\r` to `\n` (universal newlines).
  - Iterating over a file yields its lines.
  - Writing `f"{line}\n"` once per line produces `Unlines`.
- `candidates.dfy` (`Candidates`): building `to_scan`.
  - Every wordlist line is stripped.
  - Resume exclusion is decided on the stripped raw word.
  - Each kept word expands into one candidate per suffix.
  - A case mode is then applied to every candidate. `ModeOf` reads the `case`
    argument into one of four modes with the script's own chain of comparisons.
  - The nested append loops are methods proved equal to the list functions. Order,
    length and the position of every candidate are proved about those functions.
- `progress.dfy` (`Progress`): `save_progress` and `load_progress`.
  - Python iterates over a set in an order the model leaves open. A save is
    therefore specified as *some* serialisation of the set.
  - The round trip holds exactly for words that are free of `\n` and `\r` and
    carry no whitespace at either end. Lemmas show how other words come back changed.
- `results.dfy` (`Results`): one request task.
  - Attempts are an abstract function from attempt number to outcome:
    `Response(code)`, `Timeout` or `OtherError`.
  - The task stops at the first response, within at most `retries` attempts.
  - The shared found set and the output file are fields of a `ResultLog` object
    that the task updates in place. Its ghost history of matches ties them together.
  - The file format `[code] url` is given a parser. It is proved to read back every
    written file whose URLs hold no `\n`. The script itself never reads this file.
- `scan.dfy` (`Scan`): the body of `brute_force`:
  - the domain string;
  - the placeholder substitution;
  - the dispatch loop, which completes each candidate, submits its URL and rewrites
    the progress file;
  - the tasks, drained in submission order;
  - the whole run composed end to end;
  - resume behaviour.

Some quirks of the code are kept and pinned down by lemmas:

- The placeholder is `THS`, although the command-line help speaks of `FUZZ`. A
  `FUZZ` template is requested unchanged for every word.
- The case mode is spelled `capital`. `capitalize` leaves the candidates unchanged.
- Exclusion on resume tests the stripped raw word, but the completed set records
  the transformed candidate. A resumed run therefore requests a finished word's
  candidates again in two cases:
  - a non-empty suffix turns the word into something else;
  - a case mode changes the word, as `uppercase` does for a word with a lower-case letter.

  A word that some candidate leaves unchanged is still skipped. Examples are an empty
  suffix among the suffixes, or `lowercase` applied to a word that is already lower-case.
- The domain is the last piece of the split at `//`, up to its first `/`. A path
  containing `//` therefore moves it. The split cuts at the leftmost `//` first, so
  in `http:///h/p` the third slash starts the last piece and the domain is empty.

## Model

| member | source | states |
|---|---|---|
| Str.Strip | brute_force.py:81 | the result has no whitespace at either end, and equals the input exactly when the input is already trimmed; StripSpec states which slice it is |
| Str.StripSpec | brute_force.py:81 | the result is the slice of the input that starts after its leading whitespace, with only whitespace after it: the input less its leading and trailing whitespace |
| Str.StripChars | brute_force.py:81 | stripping only removes characters |
| Str.StripIgnoresTerminator | brute_force.py:44 | stripping a line read with its trailing `\n` gives the same word as stripping it without |
| Str.Upper | brute_force.py:90 | same length; no lower-case letter remains; each character is the input's up to case |
| Str.Lower | brute_force.py:92 | same length; no upper-case letter remains; each character is the input's up to case |
| Str.Capitalize | brute_force.py:94 | same length; the first character is not lower-case and the rest are not upper-case, each equal to the input's up to case |
| Str.Find | brute_force.py:99 | the result is an occurrence of the pattern and no occurrence starts earlier; nothing is returned only when the pattern never occurs |
| Str.Split | brute_force.py:71 | at least one piece; SplitPiecesFree, SplitLeftmost and JoinSplit state which pieces |
| Str.SplitPiecesFree | brute_force.py:71 | no piece contains the separator |
| Str.FirstCutLeftmost | brute_force.py:71 | the first piece ends where the leftmost occurrence of the separator starts |
| Str.SplitLeftmost | brute_force.py:71 | every cut is at the leftmost occurrence of the separator in what remains: each piece but the last, followed by the separator, first holds the separator right after the piece |
| Str.JoinSplit | brute_force.py:71 | joining the pieces back with the separator gives the original string |
| Str.Replace | brute_force.py:99 | `s.replace(pat, with)`, defined by recursion on the leftmost occurrence; ReplaceJoinsSplit and ReplaceStep state what it produces |
| Str.ReplaceJoinsSplit | brute_force.py:99 | the result is the split of the input at every non-overlapping occurrence, joined with the replacement |
| Str.ReplaceStep | brute_force.py:99 | replacement handles the first occurrence and continues on the text after it |
| Str.NatToString | brute_force.py:32 | decimal digits only, with no leading zero except for zero itself |
| Str.ParseNatToString | brute_force.py:32 | reading the decimal digits of `n` back gives `n` |
| TextFile.UniversalNewlines | brute_force.py:43-44 | no `\r` remains, text without `\r` is unchanged, and no new characters other than `\n` appear |
| TextFile.TranslateCrLf | brute_force.py:43-44 | a `\r\n` anywhere in the content reads as one `\n`, and the text on either side is read as it would be alone |
| TextFile.TranslateLoneCr | brute_force.py:43-44 | a `\r` with no `\n` after it reads as a `\n`, and the text on either side is read as it would be alone |
| TextFile.Lines | brute_force.py:44 | no yielded line contains `\n`, and every character of a line comes from the file; LinesUnlines and LinesUnlinesTail state which lines are yielded |
| TextFile.Unlines | brute_force.py:36-38 | the content of writing each line followed by `\n`, in order; UnlinesSnoc and LinesUnlines state how it grows and how it reads back |
| TextFile.LinesUnlines | brute_force.py:36-44 | iterating over what was written line by line gives back exactly those lines, when none contains `\n` |
| TextFile.LinesUnlinesTail | brute_force.py:36-44 | a last line without `\n`, as a file cut short while being rewritten ends, is yielded after the complete lines |
| Progress.SaveProgress | brute_force.py:34-38 | the new file content lists every completed word exactly once, one per line, in some order |
| Progress.LoadProgress | brute_force.py:40-45 | a missing file loads as the empty set; every loaded word is trimmed and free of line breaks |
| Progress.LoadUnlines | brute_force.py:40-45 | loading lines written one by one gives the set of those lines, when each is well formed |
| Progress.RoundTrip | brute_force.py:34-45 | loading any content that saving a set of well-formed words can produce gives back exactly that set |
| Progress.LoadLines | brute_force.py:43-44 | loading content without `\r` gives the stripped lines |
| Progress.CarriageReturnSplitsWord | brute_force.py:34-45 | a saved word `a\rb`, with `b` non-empty and neither side holding `\n` or `\r`, is read back as the set of the two stripped sides |
| Progress.CarriageReturnAtEndMerges | brute_force.py:34-45 | a saved word ending in `\r` is read back as the stripped word without it: the `\r` merges with the `\n` written after it |
| Progress.TrailingSpaceIsLost | brute_force.py:44 | a saved word ending in a space is read back without it |
| Candidates.PendingMembers | brute_force.py:82 | a word stays exactly when it is among the words and not completed |
| Candidates.Kept | brute_force.py:80-82 | no more words than lines, and no kept word is completed |
| Candidates.StrippedMembers | brute_force.py:80-81 | a word is among the stripped lines exactly when it is the stripped form of some line |
| Candidates.KeptMembers | brute_force.py:80-82 | a word is kept exactly when it is the stripped form of some wordlist line and is not completed |
| Candidates.Expand | brute_force.py:83-87 | a kept word yields one candidate per suffix, or exactly one when there are no suffixes |
| Candidates.ExpandOmitsBare | brute_force.py:83-85 | with suffixes, the bare word is a candidate only when one suffix is empty |
| Candidates.ExpandAllLength | brute_force.py:79-87 | the list has one block of `Width(suffixes)` candidates per kept word |
| Candidates.ExpandAllAt | brute_force.py:80-87 | the `j`-th candidate of the `k`-th kept word sits at index `k * Width + j` of the list and is that word's own `j`-th candidate |
| Candidates.AppendExpansion | brute_force.py:84-87 | the suffix loop appends the word's candidates, in suffix order, to the list |
| Candidates.BuildCandidates | brute_force.py:79-87 | the nested append loops build exactly the expansion of the kept words |
| Candidates.ModeOf | brute_force.py:89-93 | the comparisons of `case` with `uppercase`, `lowercase` and `capital`, in that order, with any other value choosing no transform; CapitalizeIsNotAMode pins down one such value |
| Candidates.ConvertCase | brute_force.py:89-94 | the case transform keeps the length, and the mode chosen for any value other than the three names leaves the word unchanged |
| Candidates.ApplyCase | brute_force.py:89-94 | same length, and every candidate goes through the same per-word conversion |
| Candidates.CaseUniform | brute_force.py:89-94 | after `uppercase` every candidate has no lower-case letter, after `lowercase` none has an upper-case letter, after `capital` every candidate is capitalised, and otherwise the list is unchanged |
| Candidates.CapitalizeIsNotAMode | brute_force.py:93 | the value `capitalize` leaves the list unchanged |
| Candidates.ToScan | brute_force.py:79-94 | `to_scan`: the case transform of the expansion of the kept words; ToScanLength, CaseAt and CandidateAt state its length and every element |
| Candidates.ToScanLength | brute_force.py:79-94 | `to_scan` has `Width(suffixes)` candidates per kept word |
| Candidates.CaseAt | brute_force.py:89-94 | each candidate of `to_scan` is the case conversion of the expanded candidate at the same index |
| Candidates.PrepareCandidates | brute_force.py:79-94 | the loop over the wordlist followed by the case transform builds exactly `to_scan` |
| Candidates.CandidateAt | brute_force.py:79-94 | candidates come in wordlist order and, within a word, in suffix order, each being the word plus the suffix with the case applied |
| Results.FirstResponse | brute_force.py:49-56 | the attempt returned got a response and no earlier attempt did; nothing is returned only when none of the attempts got one |
| Results.AttemptsMade | brute_force.py:49-63 | at most `retries` requests are sent; fewer only when the last one sent got a response and none before it did |
| Results.Format | brute_force.py:32 | the line `[code] url`; FormatNoNewline and ParseFormat state that it is one line and that it reads back |
| Results.FormatNoNewline | brute_force.py:32 | an output line contains no `\n` unless the URL does |
| Results.ParseLayout | brute_force.py:32 | a line `[digits] url` reads back as the number the digits spell and the URL |
| Results.ParseFormat | brute_force.py:32 | an output line reads back as the same status code and URL |
| Results.OutputRoundTrip | brute_force.py:29-32 | the output file reads back as the matches in the order written, when no URL contains `\n` |
| Results.Report | brute_force.py:52-55 | the matches after one response: appended when the code is matched and the URL is new; ReportSpec states this in both directions |
| Results.ReportSpec | brute_force.py:52-55 | a line is added exactly when the code is matched and the URL is new; the URL is then found; no URL is ever written twice |
| Results.ReportTwice | brute_force.py:52-55 | two responses for the same URL add at most one line, whatever their codes |
| Results.AfterRequest | brute_force.py:47-65 | the matches after one task: the first response within the retries, if any, is reported; AfterRequestSpec states the outcome |
| Results.AfterRequestSpec | brute_force.py:47-65 | a task adds at most one line, for its own URL with the code of its first response, and only when that code is matched and the URL is new |
| Results.AfterRequestUrls | brute_force.py:47-65 | after one task its URL is found exactly when its first response within the retries has a matched code or it was found before; a line is added exactly when that code is matched and the URL is new |
| Results.ResultLog.constructor | brute_force.py:74-76 | a run starts with no URL found and an empty output file |
| Results.ResultLog.SaveToFile | brute_force.py:29-32 | appends exactly one `[code] url` line and changes nothing else |
| Results.ResultLog.Record | brute_force.py:52-55 | the found set and the output file change as the report of that response says, keeping them consistent |
| Results.ResultLog.RequestUrl | brute_force.py:47-65 | sends the number of requests stated above and records the first response only, keeping the found set and the output file consistent |
| Scan.Domain | brute_force.py:71 | the domain contains no `/` |
| Scan.DomainOfUrl | brute_force.py:71 | for `scheme//host` followed by nothing or by a path without `//`, the domain is the host |
| Scan.DomainWithoutScheme | brute_force.py:71 | for a URL without a scheme, a host followed by nothing or by a path without `//`, the domain is the host |
| Scan.DomainTripleSlash | brute_force.py:71 | for `http:///h/p` the domain is empty: the split cuts at the first two slashes |
| Scan.DomainAfterDoubleSlashPath | brute_force.py:71 | for `http://a.io/x//y` the domain is `y` |
| Scan.TargetUrl | brute_force.py:99 | `base_url.replace("THS", word)`; TargetFirstThen, TargetSingle, TargetEvery and FuzzTemplateUnchanged state what it requests |
| Scan.PlaceholderFirst | brute_force.py:99 | a placeholder right after text containing none is the first occurrence |
| Scan.TargetSingle | brute_force.py:99 | a template with one placeholder requests the text around it with the word in its place |
| Scan.TargetEvery | brute_force.py:99 | every placeholder of the template is replaced by the word |
| Scan.FuzzTemplateUnchanged | brute_force.py:99 | a template written with `FUZZ` is requested unchanged for every word |
| Scan.Dispatch | brute_force.py:96-102 | the completed set gains every candidate; the `i`-th submitted URL is the template with the `i`-th candidate substituted; save `i` serialises the starting set plus the first `i+1` candidates; the progress file ends as the last save, which serialises the final completed set, or unchanged when nothing was dispatched |
| Scan.Discover | brute_force.py:96-101 | the matches after the tasks of the submitted URLs run in submission order; DiscoverSpec and DiscoverFinds state what they add |
| Scan.DiscoverSpec | brute_force.py:96-101 | running the tasks only appends lines; each new line is a submitted URL with a matched code that was not found before; no URL is written twice |
| Scan.DiscoverFinds | brute_force.py:96-101 | the found URLs after the tasks are exactly those found before plus every submitted URL whose first response, within the default retries, has a matched code |
| Scan.RunTasks | brute_force.py:96-101 | the tasks, run in submission order, leave the found set and output file described by `Discover` |
| Scan.RunAll | brute_force.py:96-101 | a fresh found set and output file, after the tasks of all submitted URLs, are those `Discover` describes |
| Scan.StartingWords | brute_force.py:77 | a run without resume, or with no progress file, starts from no completed words |
| Scan.BruteForce | brute_force.py:67-102 | submits the template filled with every candidate of `to_scan` in order, leaves the progress file holding the starting words plus all candidates, and returns the found set and output file of the tasks |
| Scan.PendingAllCompleted | brute_force.py:82 | when every word is completed, none stays |
| Scan.KeptAllCompleted | brute_force.py:80-82 | when every stripped line is completed, nothing is kept |
| Scan.ExpandAllBare | brute_force.py:86-87 | without suffixes the expansion is the kept words themselves |
| Scan.ResumeAfterFinishedRun | brute_force.py:77-102 | without suffixes or a case mode, resuming from the progress file of a finished run scans nothing |
| Scan.ResumeWithSuffixRescans | brute_force.py:82-98 | with a suffix, a resumed run requests a completed candidate again |
| Scan.ResumeWithCaseRescans | brute_force.py:89-98 | with `uppercase`, a resumed run requests a completed candidate again |

## Left out

- HTTP is not modelled. `requests.get` and its 10-second timeout (brute_force.py:51) are replaced by a function giving each task's attempt outcomes.
- The thread pool is not modelled. Submission appends to a list. The tasks then run one after another in submission order, which is one possible schedule.
  - The model leaves out the other interleavings.
  - It leaves out the unsynchronised check-then-add on `found_urls`. Under real concurrency, two workers requesting the same URL can both pass it and write it twice.
  - It leaves out the `threads` count.
- Files are strings. `os.makedirs`, `os.path.join`, the timestamp in the output file name, the optional log file (brute_force.py:72-74, 104-106) and the directory named after the domain (brute_force.py:170-171) are not modelled.
- On Windows, text-mode writes would turn `\n` into `\r\n`. The model writes `\n` as it is.
- Exceptions that are not request errors are not modelled. An `OSError` from a file write, for example, would end a task or the run.
- Console output is not modelled: the banner, the green match line and the progress line (brute_force.py:20, 54, 100).
- `is_valid_url`, argument parsing, the parsing of the match codes, and the reading of the wordlist with its encoding fallback (brute_force.py:22-27, 108-174) are not modelled.
  - The wordlist enters the model as its lines.
  - The match codes enter as a sequence of integers.
  - A missing `suffixes` argument is the empty sequence. Python treats both alike.
- The `--crawl` and `--recursive` flags are not modelled. They are declared but never used.
- Str.Strip: its own contract states only that the result is trimmed and when it is the input. The slice characterisation is the lemma `Str.StripSpec`. It is kept out of the function's contract so that proofs using strip stay small.
- Str.Split: its own contract states only that there is at least one piece. What the pieces are is stated by the lemmas `Str.SplitPiecesFree`, `Str.SplitLeftmost` and `Str.JoinSplit`, for the same reason.
- Str.Upper, Str.Lower, Str.Capitalize: only ASCII letters change case. Python's full Unicode mappings, including those that change a string's length, are not modelled.
- The output file is opened for appending only when the first match is written (brute_force.py:31). Before that it does not exist. The model's empty output `""` stands for both a missing file and an empty one.
- The order in which Python iterates over a set is left open. Saves are specified as some order, not a particular one.
- The output-file parser (`Results.ParseMatch`, `Results.ParseOutput`) has no counterpart in the script. It exists only to state what the written file holds.

=== FILE: candidates.dfy ===
/**
  Building the list of candidates (`to_scan`) from the wordlist: every line is stripped,
  a line whose stripped word is already completed is skipped, every other word becomes
  one candidate per suffix (or itself when there are no suffixes), and finally one case
  mode is applied to every candidate.
*/
module Candidates {
  import opened Wrappers
  import opened Str

  // ---------------------------------------------------------------------------
  // Resume exclusion and suffix expansion
  // ---------------------------------------------------------------------------

  /** Every line of the wordlist, stripped. */
  function Stripped(wordlist: seq<string>): seq<string> {
    seq(|wordlist|, j requires 0 <= j < |wordlist| => Strip(wordlist[j]))
  }

  /** The words that are not in `completed`, in their order. */
  function Pending(words: seq<string>, completed: set<string>): (r: seq<string>)
    ensures |r| <= |words|
    ensures forall i :: 0 <= i < |r| ==> r[i] !in completed
  {
    if words == [] then []
    else
      var word := words[|words| - 1];
      Pending(words[..|words| - 1], completed) + (if word in completed then [] else [word])
  }

  lemma {:induction false} PendingMembers(words: seq<string>, completed: set<string>, x: string)
    ensures x in Pending(words, completed) <==> x in words && x !in completed
  {
    if words != [] {
      var front := words[..|words| - 1];
      PendingMembers(front, completed, x);
      assert words == front + [words[|words| - 1]];
    }
  }

  /**
    The stripped words of the wordlist that are not in `completed`, in wordlist order.
    Exclusion looks at the stripped raw word, before any suffix or case change.
  */
  function Kept(wordlist: seq<string>, completed: set<string>): (r: seq<string>)
    ensures |r| <= |wordlist|
    ensures forall i :: 0 <= i < |r| ==> r[i] !in completed
  {
    Pending(Stripped(wordlist), completed)
  }

  lemma StrippedLine(wordlist: seq<string>, j: nat)
    requires j < |wordlist|
    ensures Strip(wordlist[j]) in Stripped(wordlist)
  {
    assert Stripped(wordlist)[j] == Strip(wordlist[j]);
  }

  lemma StrippedSource(wordlist: seq<string>, x: string)
    requires x in Stripped(wordlist)
    ensures exists j :: 0 <= j < |wordlist| && Strip(wordlist[j]) == x
  {
    var words := Stripped(wordlist);
    var j :| 0 <= j < |words| && words[j] == x;
    assert Strip(wordlist[j]) == x;
  }

  /** The stripped lines are the stripped forms of the lines. */
  lemma StrippedMembers(wordlist: seq<string>, x: string)
    ensures x in Stripped(wordlist) <==> exists j :: 0 <= j < |wordlist| && Strip(wordlist[j]) == x
  {
    if x in Stripped(wordlist) {
      StrippedSource(wordlist, x);
    }
    if exists j :: 0 <= j < |wordlist| && Strip(wordlist[j]) == x {
      var j :| 0 <= j < |wordlist| && Strip(wordlist[j]) == x;
      StrippedLine(wordlist, j);
    }
  }

  /** A word is kept exactly when it is the stripped form of some line and is not completed. */
  lemma KeptMembers(wordlist: seq<string>, completed: set<string>, x: string)
    ensures x in Kept(wordlist, completed)
        <==> x !in completed && exists j :: 0 <= j < |wordlist| && Strip(wordlist[j]) == x
  {
    PendingMembers(Stripped(wordlist), completed, x);
    StrippedMembers(wordlist, x);
  }

  /** How many candidates one kept word turns into. */
  function Width(suffixes: seq<string>): nat {
    if suffixes == [] then 1 else |suffixes|
  }

  /** The candidates of one kept word: the word followed by each suffix in turn, or the word alone. */
  function Expand(word: string, suffixes: seq<string>): (r: seq<string>)
    ensures |r| == Width(suffixes)
  {
    if suffixes == [] then [word]
    else seq(|suffixes|, j requires 0 <= j < |suffixes| => word + suffixes[j])
  }

  /** With suffixes, the bare word is among its candidates exactly when one of the suffixes is empty. */
  lemma ExpandOmitsBare(word: string, suffixes: seq<string>)
    requires suffixes != []
    ensures word in Expand(word, suffixes) <==> "" in suffixes
  {
    var r := Expand(word, suffixes);
    if word in r {
      var j :| 0 <= j < |r| && r[j] == word;
      assert |word + suffixes[j]| == |word|;
      assert suffixes[j] == "";
    }
    if "" in suffixes {
      var j :| 0 <= j < |suffixes| && suffixes[j] == "";
      assert r[j] == word + "" == word;
    }
  }

  /** The candidates of all kept words, word after word. */
  function ExpandAll(words: seq<string>, suffixes: seq<string>): seq<string> {
    if words == [] then []
    else ExpandAll(words[..|words| - 1], suffixes) + Expand(words[|words| - 1], suffixes)
  }

  /** Every kept word contributes exactly `Width(suffixes)` candidates. */
  lemma {:induction false} ExpandAllLength(words: seq<string>, suffixes: seq<string>)
    ensures |ExpandAll(words, suffixes)| == |words| * Width(suffixes)
  {
    if words != [] {
      var n := |words|;
      ExpandAllLength(words[..n - 1], suffixes);
      assert (n - 1) * Width(suffixes) + Width(suffixes) == n * Width(suffixes);
    }
  }

  lemma KeptSnoc(wordlist: seq<string>, completed: set<string>, i: nat)
    requires i < |wordlist|
    ensures Kept(wordlist[..i + 1], completed)
         == Kept(wordlist[..i], completed)
            + (if Strip(wordlist[i]) in completed then [] else [Strip(wordlist[i])])
  {
    var words := Stripped(wordlist[..i + 1]);
    assert words[..i] == Stripped(wordlist[..i]);
    assert words[i] == Strip(wordlist[i]);
  }

  lemma ExpandAllSnoc(words: seq<string>, word: string, suffixes: seq<string>)
    ensures ExpandAll(words + [word], suffixes) == ExpandAll(words, suffixes) + Expand(word, suffixes)
  {
    assert (words + [word])[..|words|] == words;
  }

  lemma SlotBound(k: nat, j: nat, w: nat, n: nat)
    requires k < n && j < w
    ensures k * w + j < n * w
  {
    assert (k + 1) * w == k * w + w;
    assert (k + 1) * w <= n * w;
  }

  /** The position of the `j`-th candidate of the `k`-th kept word. */
  function Slot(k: nat, j: nat, suffixes: seq<string>): nat {
    k * Width(suffixes) + j
  }

  /** The `j`-th candidate of the `k`-th kept word sits at index `k * Width + j`. */
  lemma {:induction false} ExpandAllAt(words: seq<string>, suffixes: seq<string>, k: nat, j: nat)
    requires k < |words| && j < Width(suffixes)
    ensures Slot(k, j, suffixes) < |ExpandAll(words, suffixes)|
    ensures ExpandAll(words, suffixes)[Slot(k, j, suffixes)] == Expand(words[k], suffixes)[j]
  {
    var w := Width(suffixes);
    var n := |words|;
    var prefix := words[..n - 1];
    var front := ExpandAll(prefix, suffixes);
    var last := Expand(words[n - 1], suffixes);
    assert ExpandAll(words, suffixes) == front + last;
    ExpandAllLength(prefix, suffixes);
    ExpandAllLength(words, suffixes);
    SlotBound(k, j, w, n);
    if k == n - 1 {
      assert |front| == k * w;
    } else {
      ExpandAllAt(prefix, suffixes, k, j);
      assert prefix[k] == words[k];
    }
  }

  /** The inner loop over the suffixes: appends the candidates of one kept word. */
  method AppendExpansion(toScan: seq<string>, word: string, suffixes: seq<string>)
    returns (r: seq<string>)
    ensures r == toScan + Expand(word, suffixes)
  {
    r := toScan;
    if |suffixes| > 0 {
      for j := 0 to |suffixes|
        invariant |r| == |toScan| + j && r[..|toScan|] == toScan
        invariant forall m :: 0 <= m < j ==> r[|toScan| + m] == word + suffixes[m]
      {
        r := r + [word + suffixes[j]];
      }
    } else {
      r := r + [word];
    }
  }

  /**
    The loop of `brute_force` that fills `to_scan`: for each line, strip it, skip it when
    the word is completed, otherwise append its candidates.
  */
  method BuildCandidates(wordlist: seq<string>, completed: set<string>, suffixes: seq<string>)
    returns (toScan: seq<string>)
    ensures toScan == ExpandAll(Kept(wordlist, completed), suffixes)
  {
    toScan := [];
    ghost var kept: seq<string> := [];
    for i := 0 to |wordlist|
      invariant kept == Kept(wordlist[..i], completed)
      invariant toScan == ExpandAll(kept, suffixes)
    {
      var word := Strip(wordlist[i]);
      KeptSnoc(wordlist, completed, i);
      if word !in completed {
        ExpandAllSnoc(kept, word, suffixes);
        toScan := AppendExpansion(toScan, word, suffixes);
        kept := kept + [word];
      }
    }
    assert wordlist[..|wordlist|] == wordlist;
  }

  // ---------------------------------------------------------------------------
  // Case transform
  // ---------------------------------------------------------------------------

  /** What the `case` argument asks for. */
  datatype CaseMode = Uppercase | Lowercase | Capital | Unchanged

  /**
    The comparisons of `case` with "uppercase", "lowercase" and "capital", in that order;
    any other value, `None` included, leaves the candidates alone.
  */
  function ModeOf(value: Option<string>): CaseMode {
    if value == Some("uppercase") then Uppercase
    else if value == Some("lowercase") then Lowercase
    else if value == Some("capital") then Capital
    else Unchanged
  }

  /** What the case transform does to one candidate. */
  function ConvertCase(mode: CaseMode, word: string): (r: string)
    ensures |r| == |word|
    ensures mode == Unchanged ==> r == word
  {
    match mode
    case Uppercase => Upper(word)
    case Lowercase => Lower(word)
    case Capital => Capitalize(word)
    case Unchanged => word
  }

  /** The case transform of `brute_force`: one list comprehension per mode, or the list unchanged. */
  function ApplyCase(mode: CaseMode, toScan: seq<string>): (r: seq<string>)
    ensures |r| == |toScan|
    ensures forall i :: 0 <= i < |r| ==> r[i] == ConvertCase(mode, toScan[i])
  {
    match mode
    case Uppercase => seq(|toScan|, i requires 0 <= i < |toScan| => Upper(toScan[i]))
    case Lowercase => seq(|toScan|, i requires 0 <= i < |toScan| => Lower(toScan[i]))
    case Capital => seq(|toScan|, i requires 0 <= i < |toScan| => Capitalize(toScan[i]))
    case Unchanged => toScan
  }

  /** No character of `s` is a lower-case letter. */
  predicate AllUpper(s: string) { forall k :: 0 <= k < |s| ==> !IsAsciiLower(s[k]) }

  /** No character of `s` is an upper-case letter. */
  predicate AllLower(s: string) { forall k :: 0 <= k < |s| ==> !IsAsciiUpper(s[k]) }

  /** The first character is not lower-case and the others are not upper-case. */
  predicate Capitalized(s: string) { s == [] || (!IsAsciiLower(s[0]) && AllLower(s[1..])) }

  /** One shape holds of every candidate of a run: all upper, all lower, all capitalized, or all unchanged. */
  lemma CaseUniform(mode: CaseMode, toScan: seq<string>)
    ensures mode == Uppercase ==> forall i :: 0 <= i < |toScan| ==> AllUpper(ApplyCase(mode, toScan)[i])
    ensures mode == Lowercase ==> forall i :: 0 <= i < |toScan| ==> AllLower(ApplyCase(mode, toScan)[i])
    ensures mode == Capital ==> forall i :: 0 <= i < |toScan| ==> Capitalized(ApplyCase(mode, toScan)[i])
    ensures mode == Unchanged ==> ApplyCase(mode, toScan) == toScan
  {
    var r := ApplyCase(mode, toScan);
    if mode == Capital {
      forall i | 0 <= i < |toScan| ensures Capitalized(r[i]) {
        var c := Capitalize(toScan[i]);
        assert r[i] == c;
        if c != [] {
          assert forall k :: 0 <= k < |c| - 1 ==> c[1..][k] == c[k + 1];
        }
      }
    }
  }

  /** `"capitalize"`, the usual Python spelling, is not a mode: it leaves the candidates unchanged. */
  lemma CapitalizeIsNotAMode(toScan: seq<string>)
    ensures ApplyCase(ModeOf(Some("capitalize")), toScan) == toScan
  {
    assert Some("capitalize") != Some("capital") by {
      assert |"capitalize"| != |"capital"|;
    }
  }

  // ---------------------------------------------------------------------------
  // The whole list
  // ---------------------------------------------------------------------------

  /** `to_scan` as `brute_force` hands it to the dispatch loop. */
  function ToScan(wordlist: seq<string>, completed: set<string>, suffixes: seq<string>,
                  mode: CaseMode): seq<string>
  {
    ApplyCase(mode, ExpandAll(Kept(wordlist, completed), suffixes))
  }

  /** The candidate list of a run: the loop over the word list, then the case transform. */
  method PrepareCandidates(wordlist: seq<string>, completed: set<string>, suffixes: seq<string>, mode: CaseMode)
    returns (toScan: seq<string>)
    ensures toScan == ToScan(wordlist, completed, suffixes, mode)
  {
    var expanded := BuildCandidates(wordlist, completed, suffixes);
    toScan := ApplyCase(mode, expanded);
  }

  /** `to_scan` has `Width(suffixes)` candidates per kept word. */
  lemma ToScanLength(wordlist: seq<string>, completed: set<string>, suffixes: seq<string>,
                     mode: CaseMode)
    ensures |ToScan(wordlist, completed, suffixes, mode)| == |Kept(wordlist, completed)| * Width(suffixes)
  {
    ExpandAllLength(Kept(wordlist, completed), suffixes);
  }

  lemma CaseAt(wordlist: seq<string>, completed: set<string>, suffixes: seq<string>,
               mode: CaseMode, idx: nat)
    requires idx < |ExpandAll(Kept(wordlist, completed), suffixes)|
    ensures idx < |ToScan(wordlist, completed, suffixes, mode)|
    ensures ToScan(wordlist, completed, suffixes, mode)[idx]
         == ConvertCase(mode, ExpandAll(Kept(wordlist, completed), suffixes)[idx])
  {
  }

  /**
    Candidates come in wordlist order, and within a word in suffix order: the `j`-th
    candidate of the `k`-th kept word is that word followed by the `j`-th suffix, case-converted.
  */
  lemma CandidateAt(wordlist: seq<string>, completed: set<string>, suffixes: seq<string>,
                    mode: CaseMode, k: nat, j: nat)
    requires k < |Kept(wordlist, completed)| && j < Width(suffixes)
    ensures Slot(k, j, suffixes) < |ToScan(wordlist, completed, suffixes, mode)|
    ensures ToScan(wordlist, completed, suffixes, mode)[Slot(k, j, suffixes)]
         == ConvertCase(mode, if suffixes == [] then Kept(wordlist, completed)[k]
                              else Kept(wordlist, completed)[k] + suffixes[j])
  {
    var kept := Kept(wordlist, completed);
    ExpandAllAt(kept, suffixes, k, j);
    assert Expand(kept[k], suffixes)[j] == if suffixes == [] then kept[k] else kept[k] + suffixes[j];
    CaseAt(wordlist, completed, suffixes, mode, Slot(k, j, suffixes));
  }
}

=== FILE: progress.dfy ===
/**
  The progress file: the set of completed words, written one per line after every
  dispatched candidate and read back, stripped, when a scan is resumed.
  A file is `Some(content)`, or `None` when it does not exist.
*/
module Progress {
  import opened Wrappers
  import opened Str
  import opened TextFile

  /** A word that comes back unchanged from a save and a load. */
  predicate WellFormed(w: string) {
    '\n' !in w && '\r' !in w && Trimmed(w)
  }

  /** `order` lists every element of `words` exactly once: one iteration order of a Python set. */
  ghost predicate Enumerates(order: seq<string>, words: set<string>) {
    && (forall i, j :: 0 <= i < j < |order| ==> order[i] != order[j])
    && (forall w :: w in order <==> w in words)
  }

  /** `content` is what writing `words` one per line, in some iteration order, produces. */
  ghost predicate IsSerializationOf(content: string, words: set<string>) {
    exists order :: Enumerates(order, words) && content == Unlines(order)
  }

  /**
    `save_progress`: the new content of the file, which replaces whatever was there. The
    set is written in an order the model leaves open, as Python's set iteration does.
  */
  method SaveProgress(completed: set<string>) returns (content: string)
    ensures IsSerializationOf(content, completed)
  {
    content := "";
    ghost var order: seq<string> := [];
    var rest := completed;
    while rest != {}
      invariant rest <= completed
      invariant forall w :: w in order <==> w in completed - rest
      invariant forall i, j :: 0 <= i < j < |order| ==> order[i] != order[j]
      invariant content == Unlines(order)
      decreases |rest|
    {
      var word :| word in rest;
      assert word !in order;
      ghost var next := order + [word];
      assert forall i, j :: 0 <= i < j < |next| ==> next[i] != next[j] by {
        forall i, j | 0 <= i < j < |next| ensures next[i] != next[j] {
          if j == |order| {
            assert next[i] == order[i] && order[i] in order;
          } else {
            assert next[i] == order[i] && next[j] == order[j];
          }
        }
      }
      UnlinesSnoc(order, word);
      content := content + word + "\n";
      order := next;
      rest := rest - {word};
    }
    assert Enumerates(order, completed);
  }

  /** `load_progress`: the stripped lines of the file as a set, or the empty set when there is no file. */
  function LoadProgress(file: Option<string>): (r: set<string>)
    ensures file.None? ==> r == {}
    ensures forall w :: w in r ==> WellFormed(w)
  {
    match file
    case None => {}
    case Some(content) =>
      var lines := Lines(UniversalNewlines(content));
      assert forall line :: line in lines ==> WellFormed(Strip(line)) by {
        forall line | line in lines ensures WellFormed(Strip(line)) {
          StripChars(line);
        }
      }
      set line | line in lines :: Strip(line)
  }

  lemma StripTrimmedLines(lines: seq<string>)
    requires forall i :: 0 <= i < |lines| ==> Trimmed(lines[i])
    ensures (set line | line in lines :: Strip(line)) == set line | line in lines
  {
    forall w ensures w in (set line | line in lines :: Strip(line)) <==> w in lines {
      if w in lines {
        assert Strip(w) == w;
      }
    }
  }

  /** Loading lines written one by one gives the set of those lines, when every line is well formed. */
  lemma LoadUnlines(order: seq<string>)
    requires forall i :: 0 <= i < |order| ==> WellFormed(order[i])
    ensures LoadProgress(Some(Unlines(order))) == set w | w in order
  {
    var content := Unlines(order);
    assert UniversalNewlines(content) == content by {
      UnlinesChars(order, '\r');
    }
    assert Lines(content) == order by {
      LinesUnlines(order);
    }
    StripTrimmedLines(order);
  }

  /** Loading what was saved gives back the saved set, when every word is well formed. */
  lemma RoundTrip(content: string, words: set<string>)
    requires forall w :: w in words ==> WellFormed(w)
    requires IsSerializationOf(content, words)
    ensures LoadProgress(Some(content)) == words
  {
    var order :| Enumerates(order, words) && content == Unlines(order);
    assert forall i :: 0 <= i < |order| ==> order[i] in words;
    LoadUnlines(order);
  }

  /** Loading content without '\r' strips each of its lines. */
  lemma LoadLines(lines: seq<string>)
    requires forall i :: 0 <= i < |lines| ==> '\n' !in lines[i] && '\r' !in lines[i]
    ensures LoadProgress(Some(Unlines(lines))) == set line | line in lines :: Strip(line)
  {
    assert UniversalNewlines(Unlines(lines)) == Unlines(lines) by {
      UnlinesChars(lines, '\r');
    }
    LinesUnlines(lines);
  }

  /** Loading depends only on the content as universal newlines read it. */
  lemma LoadTranslated(x: string, y: string)
    requires UniversalNewlines(x) == UniversalNewlines(y)
    ensures LoadProgress(Some(x)) == LoadProgress(Some(y))
  {
  }

  /**
    A word with a '\r' inside comes back as two words: universal newlines read that '\r'
    as a line end, and each side is stripped on its own.
  */
  lemma CarriageReturnSplitsWord(a: string, b: string)
    requires '\n' !in a && '\r' !in a && '\n' !in b && '\r' !in b && b != []
    ensures LoadProgress(Some(Unlines([a + "\r" + b]))) == {Strip(a), Strip(b)}
  {
    InnerCarriageReturn(a, b);
    LoadTranslated(Unlines([a + "\r" + b]), Unlines([a, b]));
    LoadLines([a, b]);
    ImagePair(Strip, a, b);
  }

  /** The image of a two-element sequence under `f`. */
  lemma ImagePair(f: string -> string, a: string, b: string)
    ensures (set x | x in [a, b] :: f(x)) == {f(a), f(b)}
  {
    var image := set x | x in [a, b] :: f(x);
    assert a in [a, b] && b in [a, b];
    forall w | w in image ensures w == f(a) || w == f(b) {
      var x :| x in [a, b] && w == f(x);
    }
  }

  /** The image of a one-element sequence under `f`. */
  lemma ImageSingle(f: string -> string, a: string)
    ensures (set x | x in [a] :: f(x)) == {f(a)}
  {
    assert a in [a];
  }

  /** The content saved for a word with a '\r' inside reads as the content saved for its two sides. */
  lemma InnerCarriageReturn(a: string, b: string)
    requires '\r' !in a && '\r' !in b && b != [] && b[0] != '\n'
    ensures UniversalNewlines(Unlines([a + "\r" + b])) == Unlines([a, b])
  {
    var tail := b + "\n";
    assert Unlines([a + "\r" + b]) == a + "\r" + tail;
    assert Unlines([b]) == tail;
    assert [a, b][1..] == [b];
    assert Unlines([a, b]) == a + "\n" + tail;
    TranslateLoneCr(a, tail);
  }

  /** A '\r' that ends a word merges with the '\n' written after it: the word comes back without it. */
  lemma CarriageReturnAtEndMerges(a: string)
    requires '\n' !in a && '\r' !in a
    ensures LoadProgress(Some(Unlines([a + "\r"]))) == {Strip(a)}
  {
    FinalCarriageReturn(a);
    LoadTranslated(Unlines([a + "\r"]), Unlines([a]));
    LoadLines([a]);
    ImageSingle(Strip, a);
  }

  /** The content saved for a word ending in '\r' reads as the content saved for the word without it. */
  lemma FinalCarriageReturn(a: string)
    requires '\r' !in a
    ensures UniversalNewlines(Unlines([a + "\r"])) == Unlines([a])
  {
    assert Unlines([a + "\r"]) == a + "\r\n" + [];
    assert Unlines([a]) == a + "\n";
    TranslateCrLf(a, []);
  }

  lemma StripTrailingSpace(w: string)
    requires Trimmed(w) && w != []
    ensures Strip(w + " ") == w
  {
    assert LStrip(w + " ") == w + " ";
    RStripTrailingSpace(w, ' ');
  }

  /** A word that ends in a space comes back without it. */
  lemma TrailingSpaceIsLost(w: string)
    requires WellFormed(w) && w != []
    ensures LoadProgress(Some(Unlines([w + " "]))) == {w}
  {
    assert LoadProgress(Some(Unlines([w + " "]))) == {Strip(w + " ")} by {
      LoadLines([w + " "]);
    }
    StripTrailingSpace(w);
  }
}

=== FILE: results.dfy ===
/**
  What one request task does: up to `retries` GET attempts, stopping at the first that
  gets a response, and, when that response's status code is one of the match codes and
  the URL has not been found before, adding the URL to the shared found set and
  appending a `[code] url` line to the output file.
*/
module Results {
  import opened Wrappers
  import opened Str
  import opened TextFile

  /** How one `requests.get` attempt ends: a response with a status code, a timeout, or another request error. */
  datatype Attempt = Response(code: nat) | Timeout | OtherError

  /** One line of the output file: a matched status code and the URL that answered with it. */
  datatype Match = Match(code: nat, url: string)

  /** The number of attempts `request_url` makes when the caller does not say. */
  const DefaultRetries: nat := 3

  // ---------------------------------------------------------------------------
  // Attempts
  // ---------------------------------------------------------------------------

  /** The first attempt at or after `from`, among the first `retries`, that gets a response. */
  function FirstResponse(tries: nat -> Attempt, retries: nat, from: nat): (r: Option<nat>)
    requires from <= retries
    ensures r.Some? ==> from <= r.value < retries && tries(r.value).Response?
    ensures forall a :: from <= a < retries && (r.None? || a < r.value) ==> !tries(a).Response?
    decreases retries - from
  {
    if from == retries then None
    else if tries(from).Response? then Some(from)
    else FirstResponse(tries, retries, from + 1)
  }

  /** How many GET requests `request_url` sends: up to and including the first response, and never more than `retries`. */
  function AttemptsMade(tries: nat -> Attempt, retries: nat): (n: nat)
    ensures n <= retries
    ensures n < retries ==> n > 0 && tries(n - 1).Response? && forall a :: 0 <= a < n - 1 ==> !tries(a).Response?
    ensures n == retries ==> forall a :: 0 <= a < retries - 1 ==> !tries(a).Response?
    ensures n > 0 || retries == 0
  {
    match FirstResponse(tries, retries, 0)
    case None => retries
    case Some(a) => a + 1
  }

  // ---------------------------------------------------------------------------
  // The output file
  // ---------------------------------------------------------------------------

  /** The line `save_to_file` writes for a match, without its '\n'. */
  function Format(m: Match): string {
    "[" + NatToString(m.code) + "] " + m.url
  }

  function FormatAll(ms: seq<Match>): seq<string> {
    seq(|ms|, i requires 0 <= i < |ms| => Format(ms[i]))
  }

  /** Reads one output line back: `[`, decimal digits, `] `, then the URL; nothing for any other line. */
  function ParseMatch(line: string): Option<Match> {
    if line == [] || line[0] != '[' then None
    else
      match Find(line, "]")
      case None => None
      case Some(i) =>
        if i < 2 || |line| < i + 2 || line[i + 1] != ' ' then None
        else if !(forall k :: 1 <= k < i ==> IsDigit(line[k])) then None
        else Some(Match(ParseNat(line[1..i]), line[i + 2..]))
  }

  /** Reads every line of the output file back, or nothing when some line does not parse. */
  function ParseLines(lines: seq<string>): (r: Option<seq<Match>>)
    ensures r.Some? ==> |r.value| == |lines|
  {
    if lines == [] then Some([])
    else
      match (ParseMatch(lines[0]), ParseLines(lines[1..]))
      case (Some(m), Some(ms)) => Some([m] + ms)
      case _ => None
  }

  function ParseOutput(content: string): Option<seq<Match>> {
    ParseLines(Lines(content))
  }

  /** No character of a formatted line is a '\n' unless the URL holds one. */
  lemma FormatNoNewline(m: Match)
    requires '\n' !in m.url
    ensures '\n' !in Format(m)
  {
    var d := NatToString(m.code);
    assert Format(m) == "[" + d + "] " + m.url;
    assert forall k :: 0 <= k < |d| ==> IsDigit(d[k]);
  }

  /** The first ']' of a formatted line is the one right after the digits. */
  lemma CloseBracketAfterDigits(d: string, url: string)
    requires forall k :: 0 <= k < |d| ==> IsDigit(d[k])
    ensures Find("[" + d + "] " + url, "]") == Some(1 + |d|)
  {
    var a := "[" + d;
    var b := " " + url;
    assert ']' !in a by {
      assert forall k :: 1 <= k < |a| ==> a[k] == d[k - 1];
    }
    NoOccurrenceBefore(a, "]" + b, "]");
    assert a + ("]" + b) == a + "]" + b == "[" + d + "] " + url;
    FindAfter(a, "]", b);
  }

  /** The conditions under which `ParseMatch` accepts a line whose first ']' is at `i`. */
  lemma ParseMatchAt(line: string, i: nat)
    requires 2 <= i && i + 2 <= |line| && line[0] == '[' && line[i + 1] == ' '
    requires Find(line, "]") == Some(i)
    requires forall k :: 1 <= k < i ==> IsDigit(line[k])
    ensures ParseMatch(line) == Some(Match(ParseNat(line[1..i]), line[i + 2..]))
  {
  }

  /** Where the parts of a line laid out as `[digits] url` sit. */
  lemma LayoutParts(d: string, url: string)
    requires forall k :: 0 <= k < |d| ==> IsDigit(d[k])
    ensures var line := "[" + d + "] " + url;
      && |line| == |d| + 3 + |url| && line[0] == '[' && line[|d| + 2] == ' '
      && line[1..|d| + 1] == d && line[|d| + 3..] == url
      && forall k :: 1 <= k < |d| + 1 ==> IsDigit(line[k])
  {
    var line := "[" + d + "] " + url;
    assert forall k :: 1 <= k < |d| + 1 ==> line[k] == d[k - 1];
  }

  /** A line laid out as `[digits] url` reads back as the number of the digits and the URL. */
  lemma ParseLayout(d: string, url: string)
    requires |d| >= 1 && forall k :: 0 <= k < |d| ==> IsDigit(d[k])
    ensures ParseMatch("[" + d + "] " + url) == Some(Match(ParseNat(d), url))
  {
    LayoutParts(d, url);
    CloseBracketAfterDigits(d, url);
    ParseMatchAt("[" + d + "] " + url, 1 + |d|);
  }

  /** A formatted line reads back as the same match. */
  lemma ParseFormat(m: Match)
    ensures ParseMatch(Format(m)) == Some(m)
  {
    ParseLayout(NatToString(m.code), m.url);
    ParseNatToString(m.code);
  }

  lemma {:induction false} ParseFormatAll(ms: seq<Match>)
    ensures ParseLines(FormatAll(ms)) == Some(ms)
  {
    if ms != [] {
      ParseFormat(ms[0]);
      assert FormatAll(ms)[1..] == FormatAll(ms[1..]);
      ParseFormatAll(ms[1..]);
      assert [ms[0]] + ms[1..] == ms;
    }
  }

  /** Reading the output file back gives the matches in the order they were written, when no URL holds a '\n'. */
  lemma OutputRoundTrip(ms: seq<Match>)
    requires forall i :: 0 <= i < |ms| ==> '\n' !in ms[i].url
    ensures ParseOutput(Unlines(FormatAll(ms))) == Some(ms)
  {
    forall i | 0 <= i < |ms| ensures '\n' !in FormatAll(ms)[i] {
      FormatNoNewline(ms[i]);
    }
    LinesUnlines(FormatAll(ms));
    ParseFormatAll(ms);
  }

  // ---------------------------------------------------------------------------
  // De-duplication
  // ---------------------------------------------------------------------------

  /** The URLs of the matches written so far. */
  function Urls(ms: seq<Match>): set<string> {
    set i | 0 <= i < |ms| :: ms[i].url
  }

  /** No URL is written twice. */
  predicate UrlsDistinct(ms: seq<Match>) {
    forall i, j :: 0 <= i < j < |ms| ==> ms[i].url != ms[j].url
  }

  /** The matches after one response with status `code` for `url`. */
  function Report(ms: seq<Match>, url: string, code: nat, matchCodes: seq<int>): seq<Match> {
    if code in matchCodes && url !in Urls(ms) then ms + [Match(code, url)] else ms
  }

  lemma UrlsSnoc(ms: seq<Match>, m: Match)
    ensures Urls(ms + [m]) == Urls(ms) + {m.url}
  {
    var r := ms + [m];
    assert r[|ms|].url == m.url;
    forall u | u in Urls(ms) ensures u in Urls(r) {
      var i :| 0 <= i < |ms| && ms[i].url == u;
      assert r[i] == ms[i];
    }
  }

  /**
    A line is added exactly when the code is matched and the URL is new; the URL is
    then found, and no URL is ever written twice.
  */
  lemma ReportSpec(ms: seq<Match>, url: string, code: nat, matchCodes: seq<int>)
    requires UrlsDistinct(ms)
    ensures var r := Report(ms, url, code, matchCodes);
      && UrlsDistinct(r)
      && (|r| == |ms| + 1 <==> code in matchCodes && url !in Urls(ms))
      && (|r| == |ms| || |r| == |ms| + 1) && r[..|ms|] == ms
      && Urls(r) == (if code in matchCodes then Urls(ms) + {url} else Urls(ms))
  {
    var r := Report(ms, url, code, matchCodes);
    if code in matchCodes && url !in Urls(ms) {
      UrlsSnoc(ms, Match(code, url));
      forall i | 0 <= i < |ms| ensures ms[i].url != url {
        assert ms[i].url in Urls(ms);
      }
    }
    assert r[..|ms|] == ms;
  }

  /** The matches after one `request_url` task: the first response, if any, is reported. */
  function AfterRequest(ms: seq<Match>, url: string, matchCodes: seq<int>, tries: nat -> Attempt,
                        retries: nat): seq<Match>
  {
    match FirstResponse(tries, retries, 0)
    case None => ms
    case Some(a) => Report(ms, url, tries(a).code, matchCodes)
  }

  /**
    One task adds at most one match: a line for `url` carrying the code of the first
    response, only when that code is matched and `url` is new; otherwise nothing.
  */
  lemma AfterRequestSpec(ms: seq<Match>, url: string, matchCodes: seq<int>, tries: nat -> Attempt,
                         retries: nat)
    requires UrlsDistinct(ms)
    ensures var r := AfterRequest(ms, url, matchCodes, tries, retries);
      && UrlsDistinct(r) && r[..|ms|] == ms
      && (r == ms || exists a :: (0 <= a < retries
                                  && tries(a).Response? && tries(a).code in matchCodes && url !in Urls(ms)
                                  && (forall b :: 0 <= b < a ==> !tries(b).Response?)
                                  && r == ms + [Match(tries(a).code, url)]))
  {
    match FirstResponse(tries, retries, 0)
    case None =>
    case Some(a) =>
      ReportSpec(ms, url, tries(a).code, matchCodes);
  }

  /** The task's first response within `retries` attempts carries a matched status code. */
  predicate TaskMatched(tries: nat -> Attempt, retries: nat, matchCodes: seq<int>) {
    var first := FirstResponse(tries, retries, 0);
    first.Some? && tries(first.value).code in matchCodes
  }

  /**
    After one task its URL is found exactly when its first response is matched or it was
    found before, and a line is added exactly when the response is matched and the URL new.
  */
  lemma AfterRequestUrls(ms: seq<Match>, url: string, matchCodes: seq<int>, tries: nat -> Attempt,
                         retries: nat)
    requires UrlsDistinct(ms)
    ensures var r := AfterRequest(ms, url, matchCodes, tries, retries);
      && Urls(r) == (if TaskMatched(tries, retries, matchCodes) then Urls(ms) + {url} else Urls(ms))
      && (|r| == |ms| + 1 <==> TaskMatched(tries, retries, matchCodes) && url !in Urls(ms))
      && (|r| == |ms| || |r| == |ms| + 1)
  {
    match FirstResponse(tries, retries, 0)
    case None =>
    case Some(a) =>
      ReportSpec(ms, url, tries(a).code, matchCodes);
  }

  /** Two responses for the same URL write at most one line, whatever their codes. */
  lemma ReportTwice(ms: seq<Match>, url: string, code1: nat, code2: nat, matchCodes: seq<int>)
    ensures |Report(Report(ms, url, code1, matchCodes), url, code2, matchCodes)| <= |ms| + 1
  {
    var r1 := Report(ms, url, code1, matchCodes);
    if |r1| == |ms| + 1 {
      UrlsSnoc(ms, Match(code1, url));
      assert url in Urls(r1);
    }
  }

  // ---------------------------------------------------------------------------
  // The shared state of the request tasks
  // ---------------------------------------------------------------------------

  /**
    The state `request_url` updates in place: `found_urls` and the content of the output
    file, with the matches written so far kept as ghost history.
  */
  class ResultLog {
    var found: set<string>
    var output: string
    ghost var matches: seq<Match>

    ghost predicate Valid()
      reads this
    {
      && found == Urls(matches)
      && output == Unlines(FormatAll(matches))
      && UrlsDistinct(matches)
    }

    /** A fresh run: nothing found and a new, empty output file. */
    constructor ()
      ensures Valid() && matches == []
    {
      found := {};
      output := "";
      matches := [];
    }

    /** `save_to_file`: appends one `[code] url` line to the output file. */
    method SaveToFile(url: string, code: nat)
      modifies this
      ensures output == old(output) + Format(Match(code, url)) + "\n"
      ensures matches == old(matches) + [Match(code, url)]
      ensures found == old(found)
    {
      output := output + Format(Match(code, url)) + "\n";
      matches := matches + [Match(code, url)];
    }

    /** What `request_url` does with a response: record the URL when its code is matched and it is new. */
    method Record(url: string, code: nat, matchCodes: seq<int>)
      requires Valid()
      modifies this
      ensures Valid()
      ensures matches == Report(old(matches), url, code, matchCodes)
    {
      if code in matchCodes && url !in found {
        var m := Match(code, url);
        ghost var next := matches + [m];
        assert next == Report(matches, url, code, matchCodes);
        assert Urls(next) == found + {url} by {
          UrlsSnoc(matches, m);
        }
        assert UrlsDistinct(next) by {
          ReportSpec(matches, url, code, matchCodes);
        }
        assert Unlines(FormatAll(next)) == output + Format(m) + "\n" by {
          FormatAllSnoc(matches, m);
          UnlinesSnoc(FormatAll(matches), Format(m));
        }
        found := found + {url};
        SaveToFile(url, code);
      }
    }

    /**
      `request_url`: attempts follow `tries`; the first response ends the loop and is
      recorded or not by its code, timeouts and other errors only use up an attempt.
      Returns how many requests were sent.
    */
    method RequestUrl(url: string, matchCodes: seq<int>, tries: nat -> Attempt, retries: nat)
      returns (sent: nat)
      requires Valid()
      modifies this
      ensures Valid()
      ensures sent == AttemptsMade(tries, retries)
      ensures matches == AfterRequest(old(matches), url, matchCodes, tries, retries)
    {
      sent := 0;
      for attempt := 0 to retries
        invariant sent == attempt
        invariant FirstResponse(tries, retries, 0) == FirstResponse(tries, retries, attempt)
        invariant matches == old(matches) && found == old(found) && output == old(output)
      {
        sent := sent + 1;
        match tries(attempt)
        case Response(code) =>
          Record(url, code, matchCodes);
          return;
        case Timeout =>
        case OtherError =>
      }
    }
  }

  lemma FormatAllSnoc(ms: seq<Match>, m: Match)
    ensures FormatAll(ms + [m]) == FormatAll(ms) + [Format(m)]
  {
  }
}

=== FILE: scan.dfy ===
/**
  The body of `brute_force` around the candidate list: the domain string, the placeholder
  substitution, the dispatch loop that records every candidate as completed, submits its
  request and rewrites the progress file, and the request tasks themselves, run one after
  another in submission order.
*/
module Scan {
  import opened Wrappers
  import opened Str
  import opened TextFile
  import opened Progress
  import opened Candidates
  import opened Results

  // ---------------------------------------------------------------------------
  // Domain and placeholder
  // ---------------------------------------------------------------------------

  /**
    `url.split("//")[-1].split("/")[0]`: the last piece of the split at "//", up to its
    first '/'. The split cuts at the leftmost "//" first, so in a run of three slashes the
    third one starts the last piece.
  */
  function Domain(url: string): (r: string)
    ensures '/' !in r
  {
    var pieces := Split(url, "//");
    var host := Split(pieces[|pieces| - 1], "/")[0];
    assert '/' !in host by {
      SplitPiecesFree(pieces[|pieces| - 1], "/");
      forall k | 0 <= k < |host| ensures host[k] != '/' {
        assert !OccursAt(host, "/", k);
        assert host[k..k + 1] == [host[k]];
      }
    }
    host
  }

  lemma SplitAtScheme(scheme: string, rest: string)
    requires '/' !in scheme && Find(rest, "//").None?
    ensures Split(scheme + "//" + rest, "//") == [scheme, rest]
  {
    NoOccurrenceBefore(scheme, "//" + rest, "//");
    assert scheme + "//" + rest == scheme + ("//" + rest);
    SplitStep(scheme, "//", rest);
  }

  lemma NoDoubleSlash(host: string, path: string)
    requires '/' !in host
    requires path == [] || Find(path, "//").None?
    ensures Find(host + path, "//").None?
  {
    NoOccurrenceBefore(host, path, "//");
    if path == [] {
      assert host + path == host;
      FirstCharAbsent(host, "//");
    } else {
      FindPastPrefix(host, path, "//");
    }
  }

  lemma HostFirst(host: string, path: string)
    requires '/' !in host
    requires path == [] || path[0] == '/'
    ensures Split(host + path, "/")[0] == host
  {
    if path == [] {
      assert host + path == host;
      FirstCharAbsent(host, "/");
    } else {
      NoOccurrenceBefore(host, path, "/");
      assert host + path == host + "/" + path[1..];
      FindAfter(host, "/", path[1..]);
      assert (host + path)[..|host|] == host;
    }
  }

  /**
    For `scheme//host` followed by nothing or by a path that starts with '/' and holds no
    "//", the domain is the host.
  */
  lemma DomainOfUrl(scheme: string, host: string, path: string)
    requires '/' !in scheme && '/' !in host
    requires path == [] || (path[0] == '/' && Find(path, "//").None?)
    ensures Domain(scheme + "//" + host + path) == host
  {
    NoDoubleSlash(host, path);
    SplitAtScheme(scheme, host + path);
    HostFirst(host, path);
    assert scheme + "//" + host + path == scheme + "//" + (host + path);
  }

  /**
    For a URL without a scheme, a host followed by nothing or by a path that starts with
    '/' and holds no "//", the domain is the host.
  */
  lemma DomainWithoutScheme(host: string, path: string)
    requires '/' !in host
    requires path == [] || (path[0] == '/' && Find(path, "//").None?)
    ensures Domain(host + path) == host
  {
    NoDoubleSlash(host, path);
    assert Split(host + path, "//") == [host + path];
    HostFirst(host, path);
  }

  lemma SplitDoubleSlashPath()
    ensures Split("a.io/x//y", "//") == ["a.io/x", "y"]
  {
    assert "a.io/x//y" == "a.io/x" + "//" + "y";
    forall k: nat | k < 6 ensures !OccursAt("a.io/x//y", "//", k) {
      var t := "a.io/x//y";
      assert t[k..k + 2][0] == t[k] && t[k..k + 2][1] == t[k + 1];
      assert t[k] != '/' || t[k + 1] != '/';
    }
    SplitStep("a.io/x", "//", "y");
    FirstCharAbsent("y", "//");
  }

  lemma SplitDoubleSlashUrl()
    ensures Split("http://a.io/x//y", "//") == ["http:", "a.io/x", "y"]
  {
    var tail := "a.io/x//y";
    assert "http://a.io/x//y" == "http:" + "//" + tail;
    NoOccurrenceBefore("http:", "//" + tail, "//");
    assert "http:" + "//" + tail == "http:" + ("//" + tail);
    SplitStep("http:", "//", tail);
    SplitDoubleSlashPath();
  }

  /**
    A path holding "//" moves the domain: it is the last piece of the split at "//", which
    cuts at the leftmost "//" each time.
  */
  lemma DomainAfterDoubleSlashPath()
    ensures Domain("http://a.io/x//y") == "y"
  {
    SplitDoubleSlashUrl();
    FirstCharAbsent("y", "/");
  }

  /** Three slashes in a row: the first two are the cut, the third begins the last piece, and the domain is empty. */
  lemma DomainTripleSlash()
    ensures Domain("http:///h/p") == ""
  {
    var rest := "/h/p";
    forall k: nat ensures !OccursAt(rest, "//", k) {
      if k + 2 <= |rest| {
        assert rest[k..k + 2][0] == rest[k] && rest[k..k + 2][1] == rest[k + 1];
      }
    }
    assert "http:///h/p" == "http:" + "//" + rest;
    SplitAtScheme("http:", rest);
    assert rest == [] + "/" + "h/p";
    FindAfter([], "/", "h/p");
  }

  /** The placeholder of the URL template. */
  const Placeholder: string := "THS"

  /** `base_url.replace("THS", word)`: the URL a candidate is requested at. */
  function TargetUrl(baseUrl: string, word: string): string {
    Replace(baseUrl, Placeholder, word)
  }

  /** The first character of the placeholder does not recur in it. */
  lemma PlaceholderNoBorder(d: nat)
    requires 0 < d < |Placeholder|
    ensures Placeholder[d] != Placeholder[0]
  {
  }

  /** An occurrence inside `pre` stays one inside `pre + Placeholder + rest`, and no other appears there. */
  lemma PlaceholderNotInside(pre: string, rest: string, k: nat)
    requires k + |Placeholder| <= |pre| && !OccursAt(pre, Placeholder, k)
    ensures !OccursAt(pre + Placeholder + rest, Placeholder, k)
  {
    var s := pre + Placeholder + rest;
    assert s[k..k + |Placeholder|] == pre[k..k + |Placeholder|];
  }

  /** No occurrence straddles the end of `pre`: it would put the first character of the placeholder inside it. */
  lemma PlaceholderNotAcross(pre: string, rest: string, k: nat)
    requires k < |pre| < k + |Placeholder|
    ensures !OccursAt(pre + Placeholder + rest, Placeholder, k)
  {
    var s := pre + Placeholder + rest;
    if k + |Placeholder| <= |s| {
      var d := |pre| - k;
      assert s[k..k + |Placeholder|][d] == s[|pre|] == Placeholder[0];
      PlaceholderNoBorder(d);
    }
  }

  /** An occurrence of the placeholder right after `pre` is the first one when `pre` holds none. */
  lemma PlaceholderFirst(pre: string, rest: string)
    requires Find(pre, Placeholder).None?
    ensures forall k: nat :: k < |pre| ==> !OccursAt(pre + Placeholder + rest, Placeholder, k)
  {
    forall k: nat | k < |pre| ensures !OccursAt(pre + Placeholder + rest, Placeholder, k) {
      if k + |Placeholder| <= |pre| {
        PlaceholderNotInside(pre, rest, k);
      } else {
        PlaceholderNotAcross(pre, rest, k);
      }
    }
  }

  /** The first placeholder is replaced and substitution carries on after it. */
  lemma TargetFirstThen(pre: string, rest: string, word: string)
    requires Find(pre, Placeholder).None?
    ensures TargetUrl(pre + Placeholder + rest, word) == pre + word + TargetUrl(rest, word)
  {
    PlaceholderFirst(pre, rest);
    ReplaceStep(pre, Placeholder, rest, word);
  }

  /** A template with one placeholder requests `pre + word + post`. */
  lemma TargetSingle(pre: string, post: string, word: string)
    requires Find(pre, Placeholder).None? && Find(post, Placeholder).None?
    ensures TargetUrl(pre + Placeholder + post, word) == pre + word + post
  {
    TargetFirstThen(pre, post, word);
    assert TargetUrl(post, word) == post;
  }

  /** Every placeholder is replaced, not only the first. */
  lemma TargetEvery(pre: string, mid: string, post: string, word: string)
    requires Find(pre, Placeholder).None? && Find(mid, Placeholder).None? && Find(post, Placeholder).None?
    ensures TargetUrl(pre + Placeholder + mid + Placeholder + post, word) == pre + word + mid + word + post
  {
    var rest := mid + Placeholder + post;
    calc {
      TargetUrl(pre + Placeholder + mid + Placeholder + post, word);
      { assert pre + Placeholder + mid + Placeholder + post == pre + Placeholder + rest; }
      TargetUrl(pre + Placeholder + rest, word);
      { TargetFirstThen(pre, rest, word); }
      pre + word + TargetUrl(rest, word);
      { TargetSingle(mid, post, word); }
      pre + word + (mid + word + post);
    }
  }

  /** A template written with `FUZZ`, as the help text suggests, is requested unchanged for every word. */
  lemma FuzzTemplateUnchanged(word: string)
    ensures TargetUrl("http://example.com/FUZZ", word) == "http://example.com/FUZZ"
  {
    FirstCharAbsent("http://example.com/FUZZ", Placeholder);
  }

  // ---------------------------------------------------------------------------
  // The dispatch loop
  // ---------------------------------------------------------------------------

  /** The completed words after the first `n` candidates have been dispatched. */
  function CompletedAfter(completed0: set<string>, toScan: seq<string>, n: nat): set<string>
    requires n <= |toScan|
  {
    completed0 + set w | w in toScan[..n]
  }

  /**
    The loop over `to_scan`: each candidate is added to the completed words, its target URL
    is submitted, and the progress file is rewritten with the completed words. Returns the
    completed set, the submitted URLs in order, the content of every save in order, and
    the progress file afterwards.
  */
  method Dispatch(baseUrl: string, toScan: seq<string>, completed0: set<string>, progress0: Option<string>)
    returns (completed: set<string>, submitted: seq<string>, saves: seq<string>, progress: Option<string>)
    ensures completed == completed0 + set w | w in toScan
    ensures |submitted| == |toScan|
    ensures forall i :: 0 <= i < |toScan| ==> submitted[i] == TargetUrl(baseUrl, toScan[i])
    ensures |saves| == |toScan|
    ensures forall i :: 0 <= i < |toScan| ==> IsSerializationOf(saves[i], CompletedAfter(completed0, toScan, i + 1))
    ensures progress == if toScan == [] then progress0 else Some(saves[|toScan| - 1])
    ensures toScan != [] ==> progress.Some? && IsSerializationOf(progress.value, completed)
  {
    completed := completed0;
    submitted := [];
    saves := [];
    progress := progress0;
    for i := 0 to |toScan|
      invariant completed == CompletedAfter(completed0, toScan, i)
      invariant |submitted| == i && forall k :: 0 <= k < i ==> submitted[k] == TargetUrl(baseUrl, toScan[k])
      invariant |saves| == i
      invariant forall k :: 0 <= k < i ==> IsSerializationOf(saves[k], CompletedAfter(completed0, toScan, k + 1))
      invariant progress == if i == 0 then progress0 else Some(saves[i - 1])
      invariant i > 0 ==> progress.Some? && IsSerializationOf(progress.value, completed)
    {
      var word := toScan[i];
      completed := completed + {word};
      assert toScan[..i + 1] == toScan[..i] + [word];
      submitted := submitted + [TargetUrl(baseUrl, word)];
      var content := SaveProgress(completed);
      saves := saves + [content];
      progress := Some(content);
    }
    assert toScan[..|toScan|] == toScan;
  }

  // ---------------------------------------------------------------------------
  // The request tasks
  // ---------------------------------------------------------------------------

  /**
    The matches after the tasks for `urls` run in order; task `i` sees the attempt
    outcomes `net(i)`.
  */
  function Discover(ms: seq<Match>, urls: seq<string>, matchCodes: seq<int>, net: nat -> nat -> Attempt): seq<Match> {
    if urls == [] then ms
    else
      var n := |urls| - 1;
      AfterRequest(Discover(ms, urls[..n], matchCodes, net), urls[n], matchCodes, net(n), DefaultRetries)
  }

  /**
    Running the tasks only appends matches: each new one is a submitted URL with a matched
    status code that was not found before, and no URL is written twice.
  */
  lemma {:induction false} DiscoverSpec(ms: seq<Match>, urls: seq<string>, matchCodes: seq<int>, net: nat -> nat -> Attempt)
    requires UrlsDistinct(ms)
    ensures var r := Discover(ms, urls, matchCodes, net);
      && UrlsDistinct(r) && |ms| <= |r| && r[..|ms|] == ms
      && forall i :: |ms| <= i < |r| ==> r[i].code in matchCodes && r[i].url in urls && r[i].url !in Urls(ms)
  {
    if urls != [] {
      var n := |urls| - 1;
      var front := Discover(ms, urls[..n], matchCodes, net);
      DiscoverSpec(ms, urls[..n], matchCodes, net);
      AfterRequestSpec(front, urls[n], matchCodes, net(n), DefaultRetries);
      var r := Discover(ms, urls, matchCodes, net);
      assert r[..|front|] == front;
      forall i | |ms| <= i < |r| ensures r[i].code in matchCodes && r[i].url in urls && r[i].url !in Urls(ms) {
        if i < |front| {
          assert r[i] == front[i];
          assert urls[..n][..] <= urls;
          assert front[i].url in urls[..n];
        } else {
          assert r[i].url == urls[n];
          assert urls[n] !in Urls(front);
          forall j | 0 <= j < |ms| ensures ms[j].url != urls[n] {
            assert front[j] == ms[j];
            assert front[j].url in Urls(front);
          }
        }
      }
    }
  }

  /** The submitted URLs whose task gets a response with a matched status code. */
  function MatchedUrls(urls: seq<string>, matchCodes: seq<int>, net: nat -> nat -> Attempt): set<string> {
    set i | 0 <= i < |urls| && TaskMatched(net(i), DefaultRetries, matchCodes) :: urls[i]
  }

  lemma MatchedUrlsSnoc(urls: seq<string>, matchCodes: seq<int>, net: nat -> nat -> Attempt)
    requires urls != []
    ensures var n := |urls| - 1;
      MatchedUrls(urls, matchCodes, net)
      == MatchedUrls(urls[..n], matchCodes, net)
         + (if TaskMatched(net(n), DefaultRetries, matchCodes) then {urls[n]} else {})
  {
    var n := |urls| - 1;
    var front := urls[..n];
    forall u ensures u in MatchedUrls(urls, matchCodes, net) <==>
        u in MatchedUrls(front, matchCodes, net)
        || (TaskMatched(net(n), DefaultRetries, matchCodes) && u == urls[n])
    {
      if u in MatchedUrls(urls, matchCodes, net) {
        var i :| 0 <= i < |urls| && TaskMatched(net(i), DefaultRetries, matchCodes) && urls[i] == u;
        if i < n {
          assert front[i] == u;
        }
      }
      if u in MatchedUrls(front, matchCodes, net) {
        var i :| 0 <= i < n && TaskMatched(net(i), DefaultRetries, matchCodes) && front[i] == u;
        assert urls[i] == u;
      }
    }
  }

  /**
    Running the tasks finds exactly the URLs found before plus every submitted URL whose
    first response, within the default retries, has a matched status code.
  */
  lemma {:induction false} DiscoverFinds(ms: seq<Match>, urls: seq<string>, matchCodes: seq<int>, net: nat -> nat -> Attempt)
    requires UrlsDistinct(ms)
    ensures Urls(Discover(ms, urls, matchCodes, net)) == Urls(ms) + MatchedUrls(urls, matchCodes, net)
  {
    if urls == [] {
      assert MatchedUrls(urls, matchCodes, net) == {};
    } else {
      var n := |urls| - 1;
      var front := Discover(ms, urls[..n], matchCodes, net);
      DiscoverFinds(ms, urls[..n], matchCodes, net);
      DiscoverSpec(ms, urls[..n], matchCodes, net);
      AfterRequestUrls(front, urls[n], matchCodes, net(n), DefaultRetries);
      MatchedUrlsSnoc(urls, matchCodes, net);
    }
  }

  /** The tasks, drained one after another in submission order. */
  method RunTasks(log: ResultLog, urls: seq<string>, matchCodes: seq<int>, net: nat -> nat -> Attempt)
    requires log.Valid()
    modifies log
    ensures log.Valid()
    ensures log.matches == Discover(old(log.matches), urls, matchCodes, net)
  {
    for i := 0 to |urls|
      invariant log.Valid()
      invariant log.matches == Discover(old(log.matches), urls[..i], matchCodes, net)
    {
      var sent := log.RequestUrl(urls[i], matchCodes, net(i), DefaultRetries);
      assert urls[..i + 1][..i] == urls[..i];
    }
    assert urls[..|urls|] == urls;
  }

  /** The request tasks of one run, against an empty set of found URLs and an empty output file. */
  method RunAll(urls: seq<string>, matchCodes: seq<int>, net: nat -> nat -> Attempt)
    returns (found: set<string>, output: string)
    ensures var ms := Discover([], urls, matchCodes, net);
      found == Urls(ms) && output == Unlines(FormatAll(ms))
  {
    var log := new ResultLog();
    RunTasks(log, urls, matchCodes, net);
    found := log.found;
    output := log.output;
  }

  // ---------------------------------------------------------------------------
  // brute_force
  // ---------------------------------------------------------------------------

  /** The words a run starts from: the loaded progress file when resuming, none otherwise. */
  function StartingWords(resume: bool, progress0: Option<string>): (r: set<string>)
    ensures !resume || progress0.None? ==> r == {}
  {
    if resume then LoadProgress(progress0) else {}
  }

  /**
    `brute_force`, with the clock, the directories and the log file left out: returns
    the found URLs, the output file, the progress file afterwards and the submitted URLs.
  */
  method BruteForce(baseUrl: string, wordlist: seq<string>, matchCodes: seq<int>, progress0: Option<string>,
                    resume: bool, suffixes: seq<string>, caseArg: Option<string>, net: nat -> nat -> Attempt)
    returns (found: set<string>, output: string, progress: Option<string>, submitted: seq<string>)
    ensures var toScan := ToScan(wordlist, StartingWords(resume, progress0), suffixes, ModeOf(caseArg));
      && |submitted| == |toScan|
      && (forall i :: 0 <= i < |toScan| ==> submitted[i] == TargetUrl(baseUrl, toScan[i]))
      && (toScan == [] ==> progress == progress0)
      && (toScan != [] ==>
            progress.Some? && IsSerializationOf(progress.value, StartingWords(resume, progress0) + set w | w in toScan))
    ensures var ms := Discover([], submitted, matchCodes, net);
      found == Urls(ms) && output == Unlines(FormatAll(ms))
  {
    var completed0 := StartingWords(resume, progress0);
    var toScan := PrepareCandidates(wordlist, completed0, suffixes, ModeOf(caseArg));
    var completed, saves;
    completed, submitted, saves, progress := Dispatch(baseUrl, toScan, completed0, progress0);
    found, output := RunAll(submitted, matchCodes, net);
  }

  // ---------------------------------------------------------------------------
  // Resuming
  // ---------------------------------------------------------------------------

  lemma {:induction false} PendingAllCompleted(words: seq<string>, completed: set<string>)
    requires forall j :: 0 <= j < |words| ==> words[j] in completed
    ensures Pending(words, completed) == []
  {
    if words != [] {
      PendingAllCompleted(words[..|words| - 1], completed);
    }
  }

  lemma KeptAllCompleted(wordlist: seq<string>, completed: set<string>)
    requires forall j :: 0 <= j < |wordlist| ==> Strip(wordlist[j]) in completed
    ensures Kept(wordlist, completed) == []
  {
    PendingAllCompleted(Stripped(wordlist), completed);
  }

  lemma {:induction false} ExpandAllBare(words: seq<string>)
    ensures ExpandAll(words, []) == words
  {
    if words != [] {
      ExpandAllBare(words[..|words| - 1]);
    }
  }

  /**
    Without suffixes or a case mode, resuming from the progress file of a finished run
    scans nothing, provided every stripped line is free of line breaks.
  */
  lemma ResumeAfterFinishedRun(wordlist: seq<string>, completed0: set<string>, content: string)
    requires forall j :: 0 <= j < |wordlist| ==> '\n' !in Strip(wordlist[j]) && '\r' !in Strip(wordlist[j])
    requires forall w :: w in completed0 ==> WellFormed(w)
    requires IsSerializationOf(content, completed0 + set w | w in ToScan(wordlist, completed0, [], Unchanged))
    ensures ToScan(wordlist, LoadProgress(Some(content)), [], Unchanged) == []
  {
    var kept := Kept(wordlist, completed0);
    ExpandAllBare(kept);
    assert ToScan(wordlist, completed0, [], Unchanged) == kept;
    var completed := completed0 + set w | w in kept;
    forall w | w in completed ensures WellFormed(w) {
      if w in kept {
        KeptMembers(wordlist, completed0, w);
      }
    }
    RoundTrip(content, completed);
    forall j | 0 <= j < |wordlist| ensures Strip(wordlist[j]) in completed {
      KeptMembers(wordlist, completed0, Strip(wordlist[j]));
    }
    KeptAllCompleted(wordlist, completed);
    ExpandAllBare([]);
  }

  lemma KeptSingle(word: string, completed: set<string>)
    requires Trimmed(word) && word !in completed
    ensures Kept([word], completed) == [word]
  {
    assert Stripped([word]) == [word];
    assert [word][..0] == [];
  }

  lemma ExpandSingleSuffix(word: string, suffix: string)
    ensures ExpandAll([word], [suffix]) == [word + suffix]
  {
    assert [word][..0] == [];
    assert Expand(word, [suffix]) == [word + suffix];
  }

  lemma UpperSingle(word: string)
    ensures ApplyCase(Uppercase, [word]) == [Upper(word)]
  {
  }

  /**
    With suffixes, the completed set holds `word + suffix` but exclusion looks for `word`:
    a resumed run requests the word again.
  */
  lemma ResumeWithSuffixRescans(word: string, suffix: string)
    requires Trimmed(word) && suffix != []
    ensures ToScan([word], {word + suffix}, [suffix], Unchanged) == [word + suffix]
  {
    assert word != word + suffix by {
      assert |word + suffix| > |word|;
    }
    KeptSingle(word, {word + suffix});
    ExpandSingleSuffix(word, suffix);
  }

  /**
    With a case mode, the completed set holds the converted candidate: a word with a
    lower-case letter is requested again when a run is resumed in upper case.
  */
  lemma ResumeWithCaseRescans(word: string, k: nat)
    requires Trimmed(word) && k < |word| && IsAsciiLower(word[k])
    ensures ToScan([word], {Upper(word)}, [], Uppercase) == [Upper(word)]
  {
    var up := Upper(word);
    assert up != word by {
      assert !IsAsciiLower(up[k]);
    }
    KeptSingle(word, {up});
    ExpandAllBare([word]);
    UpperSingle(word);
  }
}

=== FILE: str.dfy ===
/**
  The operations on Python `str` values that the scanner relies on, over strings of
  characters: `isspace`/`strip`, the ASCII part of `upper`/`lower`/`capitalize`,
  `split`, `replace`, and `str()` of a non-negative integer. `Find` and `Join` are not
  called by the scanner; they are this model's means of stating `split` and `replace`.
*/
module Str {
  import opened Wrappers

  // ---------------------------------------------------------------------------
  // Whitespace and str.strip()
  // ---------------------------------------------------------------------------

  /** Python's `str.isspace()` for a single character. */
  predicate IsSpace(c: char) {
    var n := c as int;
    (9 <= n <= 13) || (28 <= n <= 32) || n == 0x85 || n == 0xA0 || n == 0x1680
    || (0x2000 <= n <= 0x200A) || n == 0x2028 || n == 0x2029 || n == 0x202F
    || n == 0x205F || n == 0x3000
  }

  /** No whitespace at either end: the strings that `strip()` leaves as they are. */
  predicate Trimmed(s: string) {
    s == [] || (!IsSpace(s[0]) && !IsSpace(s[|s| - 1]))
  }

  /** `s.lstrip()`: drops the leading whitespace and nothing else. */
  function LStrip(s: string): (r: string)
    ensures |r| <= |s| && r == s[|s| - |r|..]
    ensures forall k :: 0 <= k < |s| - |r| ==> IsSpace(s[k])
    ensures r == [] || !IsSpace(r[0])
  {
    if s != [] && IsSpace(s[0]) then
      var t := LStrip(s[1..]);
      assert s[1..][|s| - 1 - |t|..] == s[|s| - |t|..];
      assert forall k :: 1 <= k < |s| - |t| ==> s[k] == s[1..][k - 1];
      t
    else s
  }

  /** `s.rstrip()`: drops the trailing whitespace and nothing else. */
  function RStrip(s: string): (r: string)
    ensures |r| <= |s| && r == s[..|r|]
    ensures forall k :: |r| <= k < |s| ==> IsSpace(s[k])
    ensures r == [] || !IsSpace(r[|r| - 1])
  {
    if s != [] && IsSpace(s[|s| - 1]) then
      var t := RStrip(s[..|s| - 1]);
      assert s[..|s| - 1][..|t|] == s[..|t|];
      assert forall k :: |t| <= k < |s| - 1 ==> s[k] == s[..|s| - 1][k];
      t
    else s
  }

  /** `r` sits in `s` at index `i`, with nothing but whitespace before and after it. */
  predicate SpaceAround(s: string, r: string, i: nat) {
    && i + |r| <= |s| && r == s[i..i + |r|]
    && (forall k :: 0 <= k < i ==> IsSpace(s[k]))
    && (forall k :: i + |r| <= k < |s| ==> IsSpace(s[k]))
  }

  /** `s.strip()`: trimmed, and the identity exactly on trimmed strings. */
  function Strip(s: string): (r: string)
    ensures Trimmed(r)
    ensures r == s <==> Trimmed(s)
  {
    RStrip(LStrip(s))
  }

  /** Stripping leaves the slice of `s` between its leading and its trailing whitespace. */
  lemma StripSpec(s: string)
    ensures SpaceAround(s, Strip(s), |s| - |LStrip(s)|)
  {
    var i := LStripSlice(s);
    var n := RStripSliceAt(s, i);
    SpaceAroundIntro(s, i, n);
    assert Strip(s) == s[i..i + n];
  }

  lemma SpaceAroundIntro(s: string, i: nat, n: nat)
    requires i + n <= |s|
    requires forall k :: 0 <= k < i ==> IsSpace(s[k])
    requires forall k :: i + n <= k < |s| ==> IsSpace(s[k])
    ensures SpaceAround(s, s[i..i + n], i)
  {
  }

  /** `rstrip` of the suffix of `s` from `i` leaves `s[i..i + n]`, and only whitespace after it. */
  lemma RStripSliceAt(s: string, i: nat) returns (n: nat)
    requires i <= |s|
    ensures i + n <= |s| && RStrip(s[i..]) == s[i..i + n]
    ensures forall k :: i + n <= k < |s| ==> IsSpace(s[k])
  {
    var l := s[i..];
    n := |RStrip(l)|;
    assert l[..n] == s[i..i + n];
    forall k | i + n <= k < |s| ensures IsSpace(s[k]) {
      assert s[k] == l[k - i];
      assert IsSpace(l[k - i]);
    }
  }

  /** `lstrip` leaves a suffix of `s`, and only whitespace before it. */
  lemma LStripSlice(s: string) returns (i: nat)
    ensures i == |s| - |LStrip(s)| && LStrip(s) == s[i..] && Strip(s) == RStrip(s[i..])
    ensures forall k :: 0 <= k < i ==> IsSpace(s[k])
  {
    i := |s| - |LStrip(s)|;
  }

  /** Stripping only removes characters. */
  lemma StripChars(s: string)
    ensures forall c :: c in Strip(s) ==> c in s
  {
    var l := LStrip(s);
    assert forall c :: c in RStrip(l) ==> c in l;
  }

  lemma {:induction false} LStripAppend(s: string, t: string)
    ensures LStrip(s + t) == if LStrip(s) == [] then LStrip(t) else LStrip(s) + t
    decreases |s|
  {
    if s == [] {
      assert s + t == t;
    } else if IsSpace(s[0]) {
      assert (s + t)[1..] == s[1..] + t;
      LStripAppend(s[1..], t);
    }
  }

  /**
    Iterating over a file yields each line WITH its '\n'; since '\n' is whitespace,
    stripping the line with or without its terminator gives the same word.
  */
  lemma RStripTrailingSpace(l: string, c: char)
    requires IsSpace(c)
    ensures RStrip(l + [c]) == RStrip(l)
  {
    var t := l + [c];
    assert t[..|t| - 1] == l;
  }

  lemma StripIgnoresTerminator(s: string)
    ensures Strip(s + "\n") == Strip(s)
  {
    var l := LStrip(s);
    LStripAppend(s, "\n");
    if l == [] {
      assert LStrip("\n") == [] by {
        assert "\n"[1..] == [];
      }
    } else {
      RStripTrailingSpace(l, '\n');
    }
  }

  // ---------------------------------------------------------------------------
  // ASCII case mapping: str.upper(), str.lower(), str.capitalize()
  // ---------------------------------------------------------------------------

  predicate IsAsciiLower(c: char) { 'a' <= c <= 'z' }

  predicate IsAsciiUpper(c: char) { 'A' <= c <= 'Z' }

  function LowerChar(c: char): (d: char)
    ensures !IsAsciiUpper(d)
  {
    if IsAsciiUpper(c) then (c as int + 32) as char else c
  }

  /** Upper-casing one character changes its case only. */
  function UpperChar(c: char): (d: char)
    ensures !IsAsciiLower(d) && LowerChar(d) == LowerChar(c)
  {
    if IsAsciiLower(c) then (c as int - 32) as char else c
  }

  /** `s.upper()`: no lower-case letter remains, and each character is `s`'s up to case. */
  function Upper(s: string): (r: string)
    ensures |r| == |s|
    ensures forall i :: 0 <= i < |r| ==> !IsAsciiLower(r[i]) && LowerChar(r[i]) == LowerChar(s[i])
  {
    seq(|s|, i requires 0 <= i < |s| => UpperChar(s[i]))
  }

  /** `s.lower()`: no upper-case letter remains, and each character is `s`'s up to case. */
  function Lower(s: string): (r: string)
    ensures |r| == |s|
    ensures forall i :: 0 <= i < |r| ==> !IsAsciiUpper(r[i]) && UpperChar(r[i]) == UpperChar(s[i])
  {
    seq(|s|, i requires 0 <= i < |s| => LowerChar(s[i]))
  }

  /** `s.capitalize()`: the first character upper-cased, all the others lower-cased. */
  function Capitalize(s: string): (r: string)
    ensures |r| == |s|
    ensures r != [] ==> !IsAsciiLower(r[0]) && LowerChar(r[0]) == LowerChar(s[0])
    ensures forall i :: 1 <= i < |r| ==> !IsAsciiUpper(r[i]) && UpperChar(r[i]) == UpperChar(s[i])
  {
    if s == [] then [] else [UpperChar(s[0])] + Lower(s[1..])
  }

  // ---------------------------------------------------------------------------
  // str.find(), str.split(sep), sep.join(), str.replace()
  // ---------------------------------------------------------------------------

  /** `p` occurs in `s` starting at index `k`. */
  predicate OccursAt(s: string, p: string, k: nat) {
    k + |p| <= |s| && s[k..k + |p|] == p
  }

  lemma OccursShift(s: string, p: string, k: nat)
    requires s != []
    ensures OccursAt(s, p, k + 1) <==> OccursAt(s[1..], p, k)
  {
    if k + 1 + |p| <= |s| {
      assert s[k + 1..k + 1 + |p|] == s[1..][k..k + |p|];
    }
  }

  /** An occurrence inside a prefix of `s` is an occurrence in `s`. */
  lemma OccursInPrefix(s: string, p: string, n: nat, k: nat)
    requires n <= |s| && OccursAt(s[..n], p, k)
    ensures OccursAt(s, p, k)
  {
    assert s[..n][k..k + |p|] == s[k..k + |p|];
  }

  /** Occurrences in a suffix of `s` are the occurrences in `s` shifted by its start. */
  lemma OccursInSuffix(s: string, p: string, n: nat, k: nat)
    requires n <= |s|
    ensures OccursAt(s[n..], p, k) <==> OccursAt(s, p, n + k)
  {
    if n + k + |p| <= |s| {
      assert s[n..][k..k + |p|] == s[n + k..n + k + |p|];
    }
  }

  /** `s.find(p)`: the first index at which `p` occurs, or nothing when it never does. */
  function Find(s: string, p: string): (r: Option<nat>)
    ensures r.Some? ==> OccursAt(s, p, r.value)
    ensures forall k: nat :: (r.None? || k < r.value) ==> !OccursAt(s, p, k)
    decreases |s|
  {
    if |s| < |p| then None
    else if s[..|p|] == p then Some(0)
    else
      match Find(s[1..], p)
      case None =>
        assert forall k: nat :: !OccursAt(s, p, k) by {
          forall k: nat ensures !OccursAt(s, p, k) {
            if k > 0 { OccursShift(s, p, k - 1); }
          }
        }
        None
      case Some(i) =>
        OccursShift(s, p, i);
        assert forall k: nat :: k < i + 1 ==> !OccursAt(s, p, k) by {
          forall k: nat | k < i + 1 ensures !OccursAt(s, p, k) {
            if k > 0 { OccursShift(s, p, k - 1); }
          }
        }
        Some(i + 1)
  }

  /** When no occurrence starts before index `|a|`, the one right after `a` is the first. */
  lemma FindAfter(a: string, p: string, b: string)
    requires forall k: nat :: k < |a| ==> !OccursAt(a + p + b, p, k)
    ensures Find(a + p + b, p) == Some(|a|)
  {
    var s := a + p + b;
    assert s[|a|..|a| + |p|] == p;
    assert OccursAt(s, p, |a|);
  }

  /** A pattern whose first character is not in `s` never occurs in it. */
  lemma FirstCharAbsent(s: string, p: string)
    requires p != [] && p[0] !in s
    ensures Find(s, p).None?
  {
    forall k: nat ensures !OccursAt(s, p, k) {
      if k + |p| <= |s| {
        assert s[k..k + |p|][0] == s[k];
      }
    }
  }

  /** No occurrence of `p` starts inside `a` when `a` lacks the first character of `p`. */
  lemma NoOccurrenceBefore(a: string, b: string, p: string)
    requires p != [] && p[0] !in a
    ensures forall k: nat :: k < |a| ==> !OccursAt(a + b, p, k)
  {
    forall k: nat | k < |a| ensures !OccursAt(a + b, p, k) {
      assert (a + b)[k] == a[k];
      if k + |p| <= |a + b| {
        assert (a + b)[k..k + |p|][0] == (a + b)[k];
      }
    }
  }

  /** With no occurrence starting inside `a`, `p` occurs in `a + b` only if it occurs in `b`. */
  lemma FindPastPrefix(a: string, b: string, p: string)
    requires forall k: nat :: k < |a| ==> !OccursAt(a + b, p, k)
    requires Find(b, p).None?
    ensures Find(a + b, p).None?
  {
    forall k: nat ensures !OccursAt(a + b, p, k) {
      if k >= |a| {
        OccursInSuffix(a + b, p, |a|, k - |a|);
        assert (a + b)[|a|..] == b;
      }
    }
  }

  /** `s.split(sep)` for a non-empty separator: the pieces between non-overlapping occurrences, left to right. */
  function Split(s: string, sep: string): (r: seq<string>)
    requires |sep| > 0
    ensures |r| >= 1
    decreases |s|
  {
    match Find(s, sep)
    case None => [s]
    case Some(i) => [s[..i]] + Split(s[i + |sep|..], sep)
  }

  /** No piece of a split holds the separator. */
  lemma {:induction false} SplitPiecesFree(s: string, sep: string)
    requires |sep| > 0
    ensures forall i :: 0 <= i < |Split(s, sep)| ==> Find(Split(s, sep)[i], sep).None?
    decreases |s|
  {
    match Find(s, sep)
    case None =>
    case Some(i) =>
      var head, rest := s[..i], s[i + |sep|..];
      NoneBeforeFirst(s, sep, i);
      SplitPiecesFree(rest, sep);
      var pieces := Split(s, sep);
      assert pieces == [head] + Split(rest, sep);
      forall j | 0 <= j < |pieces| ensures Find(pieces[j], sep).None? {
        if j > 0 {
          assert pieces[j] == Split(rest, sep)[j - 1];
        }
      }
  }

  /** Splitting at an occurrence that no earlier one overlaps: the piece before it, then the split of the rest. */
  lemma SplitStep(a: string, sep: string, b: string)
    requires |sep| > 0
    requires forall k: nat :: k < |a| ==> !OccursAt(a + sep + b, sep, k)
    ensures Split(a + sep + b, sep) == [a] + Split(b, sep)
  {
    var s := a + sep + b;
    FindAfter(a, sep, b);
    assert s[..|a|] == a;
    assert s[|a| + |sep|..] == b;
  }

  /** A string in which `p` never occurs is one where `find` finds nothing. */
  lemma FindNone(t: string, p: string)
    requires forall k: nat :: !OccursAt(t, p, k)
    ensures Find(t, p).None?
  {
  }

  /** The text before the first occurrence of `p` holds none. */
  lemma NoneBeforeFirst(s: string, p: string, i: nat)
    requires |p| > 0 && i <= |s| && forall k: nat :: k < i ==> !OccursAt(s, p, k)
    ensures Find(s[..i], p).None?
  {
    forall k: nat ensures !OccursAt(s[..i], p, k) {
      if k + |p| <= i {
        PrefixOccurrence(s, i, p, k);
      }
    }
    FindNone(s[..i], p);
  }

  /** An occurrence with none before it is what `find` returns. */
  lemma FindIs(t: string, p: string, i: nat)
    requires OccursAt(t, p, i) && forall k: nat :: k < i ==> !OccursAt(t, p, k)
    ensures Find(t, p) == Some(i)
  {
    var r := Find(t, p);
    assert !(r.None? || i < r.value);
    assert !(r.value < i);
  }

  /** Occurrences that end inside a prefix of `s` are the occurrences of `s` there. */
  lemma PrefixOccurrence(s: string, n: nat, p: string, k: nat)
    requires k + |p| <= n <= |s|
    ensures OccursAt(s[..n], p, k) <==> OccursAt(s, p, k)
  {
    assert s[..n][k..k + |p|] == s[k..k + |p|];
  }

  /** The first piece of a split ends where the leftmost occurrence of the separator starts. */
  lemma FirstCutLeftmost(s: string, sep: string, i: nat)
    requires OccursAt(s, sep, i) && forall k: nat :: k < i ==> !OccursAt(s, sep, k)
    ensures Find(s[..i] + sep, sep) == Some(i)
  {
    PrefixCut(s, sep, i);
    LeftmostInPrefix(s, sep, i, s[..i] + sep);
  }

  /** The text up to the end of an occurrence is the text before it followed by the pattern. */
  lemma PrefixCut(s: string, p: string, i: nat)
    requires OccursAt(s, p, i)
    ensures s[..i] + p == s[..i + |p|]
  {
    assert s[..i + |p|] == s[..i] + s[i..i + |p|];
  }

  /** The leftmost occurrence is still found once the text after it is cut off. */
  lemma LeftmostInPrefix(s: string, p: string, i: nat, t: string)
    requires OccursAt(s, p, i) && forall k: nat :: k < i ==> !OccursAt(s, p, k)
    requires t == s[..i + |p|]
    ensures Find(t, p) == Some(i)
  {
    PrefixKeepsLeftmost(s, p, i, t);
    FindIs(t, p, i);
  }

  /** Cutting the text off after the leftmost occurrence adds no earlier one. */
  lemma PrefixKeepsLeftmost(s: string, p: string, i: nat, t: string)
    requires OccursAt(s, p, i) && forall k: nat :: k < i ==> !OccursAt(s, p, k)
    requires t == s[..i + |p|]
    ensures OccursAt(t, p, i)
    ensures forall k: nat :: k < i ==> !OccursAt(t, p, k)
  {
    var n := i + |p|;
    forall k: nat | k < i ensures !OccursAt(s[..n], p, k) {
      PrefixOccurrence(s, n, p, k);
    }
    PrefixOccurrence(s, n, p, i);
  }

  /**
    Every cut is made at the leftmost occurrence of the separator in what remains: each
    piece but the last, followed by the separator, holds its first occurrence right there.
  */
  lemma {:induction false} SplitLeftmost(s: string, sep: string)
    requires |sep| > 0
    ensures forall k :: 0 <= k < |Split(s, sep)| - 1 ==> Find(Split(s, sep)[k] + sep, sep) == Some(|Split(s, sep)[k]|)
    decreases |s|
  {
    match Find(s, sep)
    case None =>
    case Some(i) =>
      var head, rest := s[..i], s[i + |sep|..];
      var pieces := Split(s, sep);
      assert pieces == [head] + Split(rest, sep);
      SplitLeftmost(rest, sep);
      FirstCutLeftmost(s, sep, i);
      forall k | 0 <= k < |pieces| - 1 ensures Find(pieces[k] + sep, sep) == Some(|pieces[k]|) {
        if k > 0 {
          assert pieces[k] == Split(rest, sep)[k - 1];
        }
      }
  }

  /** `sep.join(parts)`. */
  function Join(parts: seq<string>, sep: string): string {
    if parts == [] then ""
    else if |parts| == 1 then parts[0]
    else parts[0] + sep + Join(parts[1..], sep)
  }

  /** Splitting and joining back with the same separator gives the original string. */
  lemma {:induction false} JoinSplit(s: string, sep: string)
    requires |sep| > 0
    ensures Join(Split(s, sep), sep) == s
    decreases |s|
  {
    match Find(s, sep)
    case None =>
    case Some(i) =>
      var head, rest := s[..i], s[i + |sep|..];
      var tail := Split(rest, sep);
      assert Split(s, sep) == [head] + tail;
      JoinSplit(rest, sep);
      JoinCons(head, tail, sep);
      Reassemble(s, sep, i);
  }

  /** Joining a list of at least two pieces puts the separator after the first. */
  lemma JoinCons(head: string, tail: seq<string>, sep: string)
    requires tail != []
    ensures Join([head] + tail, sep) == head + sep + Join(tail, sep)
  {
    assert ([head] + tail)[1..] == tail;
  }

  /** A string is what precedes an occurrence, the occurrence, and what follows it. */
  lemma Reassemble(s: string, sep: string, i: nat)
    requires OccursAt(s, sep, i)
    ensures s == s[..i] + sep + s[i + |sep|..]
  {
    assert s[i..i + |sep|] == sep;
    assert s == s[..i] + s[i..i + |sep|] + s[i + |sep|..];
  }

  /**
    `s.replace(pat, with)`: every non-overlapping occurrence of `pat`, left to right, is
    replaced; the result is the pieces that `split` finds, joined with `with`.
  */
  function Replace(s: string, pat: string, with: string): string
    requires |pat| > 0
    decreases |s|
  {
    match Find(s, pat)
    case None => s
    case Some(i) => s[..i] + with + Replace(s[i + |pat|..], pat, with)
  }

  /** Replacing is splitting at every occurrence and joining the pieces with the replacement. */
  lemma {:induction false} ReplaceJoinsSplit(s: string, pat: string, with: string)
    requires |pat| > 0
    ensures Replace(s, pat, with) == Join(Split(s, pat), with)
    decreases |s|
  {
    match Find(s, pat)
    case None =>
    case Some(i) =>
      var rest := s[i + |pat|..];
      var tail := Split(rest, pat);
      ReplaceJoinsSplit(rest, pat, with);
      assert Split(s, pat) == [s[..i]] + tail;
      JoinCons(s[..i], tail, with);
  }

  /** Replacement handles the first occurrence and carries on after it. */
  lemma ReplaceStep(pre: string, pat: string, rest: string, with: string)
    requires |pat| > 0
    requires forall k: nat :: k < |pre| ==> !OccursAt(pre + pat + rest, pat, k)
    ensures Replace(pre + pat + rest, pat, with) == pre + with + Replace(rest, pat, with)
  {
    var s := pre + pat + rest;
    FindAfter(pre, pat, rest);
    assert s[..|pre|] == pre;
    assert s[|pre| + |pat|..] == rest;
  }

  // ---------------------------------------------------------------------------
  // str() of a non-negative integer, and its inverse
  // ---------------------------------------------------------------------------

  predicate IsDigit(c: char) { '0' <= c <= '9' }

  function DigitChar(d: nat): (c: char)
    requires d < 10
    ensures IsDigit(c) && DigitValue(c) == d
  {
    ('0' as int + d) as char
  }

  /** `str(n)`: decimal digits, no leading zero except in "0" itself. */
  function NatToString(n: nat): (r: string)
    ensures |r| >= 1 && forall i :: 0 <= i < |r| ==> IsDigit(r[i])
    ensures (r[0] == '0') == (n == 0)
    ensures (|r| == 1) == (n < 10)
  {
    if n < 10 then [DigitChar(n)] else NatToString(n / 10) + [DigitChar(n % 10)]
  }

  function DigitValue(c: char): nat
    requires IsDigit(c)
  {
    c as int - '0' as int
  }

  /** `int(s)` for a string of decimal digits. */
  function ParseNat(s: string): nat
    requires forall i :: 0 <= i < |s| ==> IsDigit(s[i])
  {
    if s == [] then 0 else ParseNat(s[..|s| - 1]) * 10 + DigitValue(s[|s| - 1])
  }

  lemma {:induction false} ParseNatToString(n: nat)
    ensures ParseNat(NatToString(n)) == n
  {
    if n >= 10 {
      var s := NatToString(n);
      assert s[..|s| - 1] == NatToString(n / 10);
      ParseNatToString(n / 10);
    }
  }
}

=== FILE: textfile.dfy ===
/**
  What a Python text file looks like to the scanner: the content is a string, reading
  translates every line ending ('\r\n', '\r' or '\n') to '\n', and iterating over the
  file yields the lines one at a time.
*/
module TextFile {

  /**
    Reading a file in text mode with universal newlines: "\r\n" and a lone '\r' both
    become '\n'; nothing else changes.
  */
  function UniversalNewlines(s: string): (r: string)
    ensures '\r' !in r
    ensures '\r' !in s ==> r == s
    ensures forall c :: c in r ==> c in s || c == '\n'
    decreases |s|
  {
    if s == [] then []
    else if s[0] == '\r' then
      "\n" + UniversalNewlines(if |s| > 1 && s[1] == '\n' then s[2..] else s[1..])
    else
      [s[0]] + UniversalNewlines(s[1..])
  }

  /** Regrouping the pieces of a translated content. */
  lemma Regroup(x: string, y: string, z: string, w: string)
    ensures x + (y + z + w) == x + y + z + w
  {
  }

  /** One step of reading: the first line ending or character, then the rest. */
  lemma UnfoldStep(s: string, n: nat, head: string)
    requires s != []
    requires n == if s[0] == '\r' && |s| > 1 && s[1] == '\n' then 2 else 1
    requires head == if s[0] == '\r' then "\n" else [s[0]]
    ensures UniversalNewlines(s) == head + UniversalNewlines(s[n..])
  {
  }

  /** Reading `a` followed by text that starts with '\r' takes the same first step as reading `a`. */
  lemma ConcatStep(a: string, m: string, b: string, n: nat, head: string)
    requires a != [] && m != [] && m[0] == '\r'
    requires n == if a[0] == '\r' && |a| > 1 && a[1] == '\n' then 2 else 1
    requires head == if a[0] == '\r' then "\n" else [a[0]]
    ensures UniversalNewlines(a + m + b) == head + UniversalNewlines(a[n..] + m + b)
    ensures UniversalNewlines(a) == head + UniversalNewlines(a[n..])
  {
    var s := a + m + b;
    assert s[0] == a[0] && (|a| > 1 ==> s[1] == a[1]) && (|a| == 1 ==> s[1] == '\r');
    assert s[n..] == a[n..] + m + b;
    UnfoldStep(s, n, head);
    UnfoldStep(a, n, head);
  }

  /** A "\r\n" anywhere in the content reads as one '\n', whatever precedes and follows it. */
  lemma {:induction false} TranslateCrLf(a: string, b: string)
    ensures UniversalNewlines(a + "\r\n" + b) == UniversalNewlines(a) + "\n" + UniversalNewlines(b)
    decreases |a|
  {
    var s := a + "\r\n" + b;
    if a == [] {
      assert s[0] == '\r' && s[1] == '\n' && s[2..] == b;
      UnfoldStep(s, 2, "\n");
      assert a + "\n" + UniversalNewlines(b) == "\n" + UniversalNewlines(b);
    } else {
      var n := if a[0] == '\r' && |a| > 1 && a[1] == '\n' then 2 else 1;
      var head := if a[0] == '\r' then "\n" else [a[0]];
      ConcatStep(a, "\r\n", b, n, head);
      TranslateCrLf(a[n..], b);
      Regroup(head, UniversalNewlines(a[n..]), "\n", UniversalNewlines(b));
    }
  }

  /** A '\r' that no '\n' follows reads as a '\n' too, whatever precedes it. */
  lemma {:induction false} TranslateLoneCr(a: string, b: string)
    requires b == [] || b[0] != '\n'
    ensures UniversalNewlines(a + "\r" + b) == UniversalNewlines(a) + "\n" + UniversalNewlines(b)
    decreases |a|
  {
    var s := a + "\r" + b;
    if a == [] {
      assert s[0] == '\r' && (|s| > 1 ==> s[1] == b[0]) && s[1..] == b;
      UnfoldStep(s, 1, "\n");
      assert a + "\n" + UniversalNewlines(b) == "\n" + UniversalNewlines(b);
    } else {
      var n := if a[0] == '\r' && |a| > 1 && a[1] == '\n' then 2 else 1;
      var head := if a[0] == '\r' then "\n" else [a[0]];
      ConcatStep(a, "\r", b, n, head);
      TranslateLoneCr(a[n..], b);
      Regroup(head, UniversalNewlines(a[n..]), "\n", UniversalNewlines(b));
    }
  }

  /** The index of the first '\n' of `s`, or `|s|` when there is none. */
  function LineEnd(s: string): (k: nat)
    ensures k <= |s| && (k < |s| ==> s[k] == '\n')
    ensures forall i :: 0 <= i < k ==> s[i] != '\n'
  {
    if s == [] || s[0] == '\n' then 0 else 1 + LineEnd(s[1..])
  }

  /**
    The lines that iterating over the (already translated) content yields, each without
    its '\n'; a final line without '\n' is yielded too, an empty tail is not.
  */
  function Lines(s: string): (r: seq<string>)
    ensures forall i :: 0 <= i < |r| ==> '\n' !in r[i]
    ensures forall i, c :: 0 <= i < |r| && c in r[i] ==> c in s
    decreases |s|
  {
    if s == [] then []
    else
      var k := LineEnd(s);
      assert forall c :: c in s[..k] ==> c in s;
      assert k < |s| ==> forall c :: c in s[k + 1..] ==> c in s;
      [s[..k]] + (if k < |s| then Lines(s[k + 1..]) else [])
  }

  /** The content written by `file.write(f"{line}\n")` for each line in turn. */
  function Unlines(lines: seq<string>): string {
    if lines == [] then "" else lines[0] + "\n" + Unlines(lines[1..])
  }

  lemma {:induction false} UnlinesSnoc(lines: seq<string>, line: string)
    ensures Unlines(lines + [line]) == Unlines(lines) + line + "\n"
  {
    if lines != [] {
      assert (lines + [line])[1..] == lines[1..] + [line];
      UnlinesSnoc(lines[1..], line);
    } else {
      assert lines + [line] == [line];
    }
  }

  lemma {:induction false} LineEndAt(line: string, rest: string)
    requires '\n' !in line
    ensures LineEnd(line + "\n" + rest) == |line|
  {
    if line != [] {
      assert (line + "\n" + rest)[1..] == line[1..] + "\n" + rest;
      LineEndAt(line[1..], rest);
    }
  }

  /** A line ended by '\n' is yielded first, then the lines of what follows. */
  lemma LinesStep(line: string, rest: string)
    requires '\n' !in line
    ensures Lines(line + "\n" + rest) == [line] + Lines(rest)
  {
    var s := line + "\n" + rest;
    LineEndAt(line, rest);
    assert s[..|line|] == line;
    assert s[|line| + 1..] == rest;
  }

  /** Reading back what was written one line at a time gives the same lines, provided none holds a '\n'. */
  lemma {:induction false} LinesUnlines(lines: seq<string>)
    requires forall i :: 0 <= i < |lines| ==> '\n' !in lines[i]
    ensures Lines(Unlines(lines)) == lines
  {
    if lines != [] {
      var rest := Unlines(lines[1..]);
      var s := lines[0] + "\n" + rest;
      LineEndAt(lines[0], rest);
      assert s[..|lines[0]|] == lines[0];
      assert s[|lines[0]| + 1..] == rest;
      LinesUnlines(lines[1..]);
    }
  }

  /**
    A last line without its '\n', as a file cut short while being rewritten ends, is
    still yielded after the complete lines.
  */
  lemma {:induction false} LinesUnlinesTail(lines: seq<string>, last: string)
    requires forall i :: 0 <= i < |lines| ==> '\n' !in lines[i]
    requires '\n' !in last && last != []
    ensures Lines(Unlines(lines) + last) == lines + [last]
  {
    if lines == [] {
      assert Unlines(lines) + last == last;
      assert last[..|last|] == last;
    } else {
      var rest := Unlines(lines[1..]) + last;
      assert Unlines(lines) + last == lines[0] + "\n" + rest;
      LinesStep(lines[0], rest);
      LinesUnlinesTail(lines[1..], last);
      ConsSnoc(lines, last);
    }
  }

  lemma ConsSnoc<T>(xs: seq<T>, x: T)
    requires xs != []
    ensures xs + [x] == [xs[0]] + (xs[1..] + [x])
  {
  }

  /** A character that no line holds, other than '\n', is not in the written content. */
  lemma {:induction false} UnlinesChars(lines: seq<string>, c: char)
    requires c != '\n' && forall i :: 0 <= i < |lines| ==> c !in lines[i]
    ensures c !in Unlines(lines)
  {
    if lines != [] {
      UnlinesChars(lines[1..], c);
    }
  }
}

=== FILE: wrappers.dfy ===
/** A value that may be absent: a missing file, a search that found nothing, a line that does not parse. */
module Wrappers {

  datatype Option<+T> = None | Some(value: T)
}
